=== FILE: README.md ===
# suitcase-csv exporters, modelled in Dafny

This project models the two CSV exporters of `suitcase-csv`. Both turn a run's
stream of `(name, document)` pairs into CSV files. They are modelled separately
because they behave differently.

- **`suitcase/Csv`**, modules `RouterCsv` and `RouterCsvRun`. This is the
  `Serializer` that a document router feeds with start, descriptor and
  event-page documents.
  - `start` refuses a second start document. It fills the file-name template
    from the start document.
  - `descriptor` records which stream name each descriptor uid belongs to.
  - `event_page` keeps only the fields whose page-level array has rank 1. When
    at least one such field survives, it opens the stream's file on first use
    (exclusive create) and appends one table: the time stamps as the index, the
    surviving fields, and a `seq_num` column. The table has a header only on the
    stream's first write, and only when headers are on.
  - `close` closes every file.
  - `export` feeds every document and then closes the files on every way out.
    It returns the manager's artifacts: a dict from the label `stream_data` to
    the files created. The model keeps only that list.
- **`suitcase/csv`**, modules `InlineCsv` and `InlineCsvRun`. This is an
  `export` function: one loop that dispatches on the document name.
  - It keeps start, descriptors and stop in a metadata record.
  - It opens a new file for each descriptor, named
    `<filepath>_<stream>_<k>.csv`, where `k` is the number of earlier
    descriptors with the same uid. `files` keeps the latest file of each uid.
  - It writes every field of an `event` or `bulk_event` to its descriptor's
    file. The header goes on that uid's first write only.
  - A `finally` clause closes the files that `files` still holds.
  - Only when the loop completes does it write the metadata and return the
    metadata file's name, followed by the names of the files in `files`, in
    insertion order.

Shared vocabulary:
- Module `Optional` holds `Option`, Python's `None` or a present value, with
  `GetOr` for `dict.get(k, default)`.
- Module `Dicts` holds the insertion-ordered dictionary used for Python dicts
  and pandas column assignment. A key that is already present is replaced in
  place; a new key is appended.
- Module `Common` holds arrays with a shape, tables (`Chunk`, one `to_csv`
  call), file sinks, the `header`/`index_label`/`mode` defaults, and the
  decimal rendering of the file counter.

Each handler is a pure function from the exporter's state to a `Result`. A
`Result` is `Ok(state)`, or `Raised(error, state)` carrying the state the
exception leaves behind. A run is the left fold of the handlers, and it stops
at the first error. The `Export` methods run the same fold as a loop and add
the `finally` behaviour.

How each exporter behaves, as the code is written:
- In `suitcase/Csv`, the rank filter applies to the whole page's array for a
  field. So a field whose value in each event is a scalar survives. A field
  whose value in each event is a one-dimensional list does not, because the
  page-level array is then two-dimensional.
- In `suitcase/Csv`, when a surviving field is itself named `seq_num`, pandas
  replaces that column with the page's sequence numbers in place.
- In `suitcase/csv`, a descriptor whose uid was already seen gets a new file
  and counter value. The new file takes the old one's place in `files`, so the
  old file is no longer closed by the `finally` clause or listed in the result
  (`InlineCsvRun.DescriptorFileNumber`).
- In `suitcase/csv`, the counter is kept per uid, but the file name uses the
  stream name. So the first descriptors of two different uids in one stream
  both name `<filepath>_<stream>_0.csv`.
- In `suitcase/csv`, a uid counts as written once any event for it has been
  written. So a file that uid re-opens never gets a header
  (`InlineCsvRun.WriteHeader`).

Further facts about the code that the model follows:
- `suitcase/csv` applies no rank filter: every field of an event is written.
- Neither exporter closes files on a stop document. `suitcase/Csv` ignores stop
  documents, and `suitcase/csv` only stores them. In both, the files are closed
  by `export`'s `finally` clause.
- `suitcase/csv` writes the metadata only when the loop completes.
  `suitcase/Csv` writes no metadata file.
- Headers are marked per descriptor uid in `suitcase/csv`, and per stream name
  in `suitcase/Csv`.
- Neither exporter has a flush option.
- In `suitcase/csv`, an `event` whose `time` is a list gets an index of one
  level holding those stamps, so it is written as one row per stamp. Only a
  `bulk_event` whose `time` is a single stamp is refused.
- A stream without a name is written under the text "None". So in
  `suitcase/Csv` an unnamed stream and a stream named "None" get the same file
  name. Whichever of the two opens its file second raises `FileExists`, because
  the `xt` open refuses a file that already exists (`RouterCsv.SinkPathsEqual`,
  `RouterCsv.SharedFileRaises`).

## Model

| member | source | states |
|---|---|---|
| Dicts.Get | suitcase/csv/__init__.py:90 | A dict lookup finds a value exactly when the key is present, and the value found is stored under that key. |
| Dicts.Put | suitcase/csv/__init__.py:76 | Assigning to a present key replaces its value in place and keeps the key order. Assigning to a new key appends it. Afterwards the key maps to the new value and every other key to what it held before. |
| Common.SetDefaults | suitcase/Csv/__init__.py:169-173 | `header`, `index_label` and `mode` keep a value given by the caller. Otherwise they default to True, "time" and "a". |
| Common.Render | suitcase/Csv/__init__.py:245-246 | A stream name is written into a file name as itself, and a missing name as the text "None". |
| Common.RenderEqual | suitcase/csv/__init__.py:72-75 | Two stream names render alike exactly when they are equal, or when one is missing and the other is "None". |
| Common.FieldColumns | suitcase/csv/__init__.py:85 | A frame built from a dict of fields has one column per field, in the fields' order, each holding that field's name and values. |
| Common.Decimal | suitcase/csv/__init__.py:74-75 | The counter is written as a non-empty string of decimal digits that starts with "0" only for 0. |
| Common.DecimalRoundTrip | suitcase/csv/__init__.py:74-75 | The counter written into a file name is a string of decimal digits that reads back as the counter's value. |
| Common.DecimalInjective | suitcase/csv/__init__.py:74-75 | Different counter values are written as different strings. |
| RouterCsv.Init | suitcase/Csv/__init__.py:152-173 | A new serializer has seen no start, knows no streams, has no files or header marks, and an empty templated prefix. The file prefix is the one given, or "{uid}-" by default. The options are defaulted, and the state invariant holds. |
| RouterCsv.SinkPath | suitcase/Csv/__init__.py:245-246 | A stream's file name is the templated prefix, then the rendered stream name, then ".csv". |
| RouterCsv.SinkPathsEqual | suitcase/Csv/__init__.py:245-246 | Two streams get the same file name exactly when their names render alike. |
| RouterCsv.SharedFileRaises | suitcase/Csv/__init__.py:244-247 | When two different stream names render alike and one already has its file, opening the other's file raises `FileExists` on that same path and changes nothing. |
| RouterCsv.OnStart | suitcase/Csv/__init__.py:175-196 | A second start raises and leaves the state unchanged. The first start is marked as found even when filling the template fails. It succeeds exactly when the template can be filled, and the prefix becomes the filled template. Nothing else changes. |
| RouterCsv.OnDescriptor | suitcase/Csv/__init__.py:198-211 | The descriptor's uid now maps to its stream name. Every other uid keeps its mapping. Nothing else changes. |
| RouterCsv.Tabular | suitcase/Csv/__init__.py:239-251 | The fields kept are exactly those of the page whose array has rank 1, and each has rank 1. A page of rank-1 fields is kept whole, and a page of none is dropped entirely. |
| RouterCsv.TabularConcat | suitcase/Csv/__init__.py:239-251 | Filtering two runs of fields gives the first run's kept fields followed by the second's. Together with the single-field cases of `Tabular`, this fixes the result: each rank-1 field once, in the page's order. |
| RouterCsv.PageTable | suitcase/Csv/__init__.py:252-255 | The table written for a page is indexed by the page's time stamps, one row per stamp. Its columns are the kept fields, plus `seq_num` holding the page's sequence numbers. `seq_num` goes last, or replaces a kept field of that name in place. Every column other than `seq_num` holds exactly what that field's column holds. Every column is rank 1 or `seq_num`. The header flag is the one given. |
| RouterCsv.SeqNumKeepsTabular | suitcase/Csv/__init__.py:254-255 | Adding the `seq_num` column to a frame of rank-1 fields leaves only rank-1 columns and `seq_num`. |
| RouterCsv.OpenSink | suitcase/Csv/__init__.py:243-248 | A stream that has a sink keeps it, and nothing changes. For a new stream, opening `<prefix><stream>.csv` exclusively raises with that name, changing nothing, exactly when the serializer already created it. Otherwise the stream gets an open, empty sink of that name, the name is added to the artifacts, and nothing else changes. |
| RouterCsv.OnEventPage | suitcase/Csv/__init__.py:213-261 | An unknown descriptor uid raises, and nothing changes. A page with no rank-1 field changes nothing. It raises exactly when the stream's file is new but its name is already taken. Otherwise it appends exactly one table to the stream's sink, with a header iff headers are on and the stream was never written. A new sink goes under the templated name, which is added to the artifacts. Other streams are unchanged, and the stream is marked as written. |
| RouterCsv.Step | suitcase/Csv/__init__.py:175-261 | Every document keeps the invariant: distinct files, each in the artifacts, none closed, a header only on a stream's first table. Files only grow. Stop documents and unrouted kinds change nothing. |
| RouterCsv.EventPageKeepsInv | suitcase/Csv/__init__.py:240-261 | Writing a page keeps the invariant. |
| RouterCsv.OpenSinkKeepsInv | suitcase/Csv/__init__.py:243-248 | Opening a stream's sink keeps the invariant, the header marks and the stream's contents. |
| RouterCsv.OpenKeepsRegistered | suitcase/Csv/__init__.py:244-248 | A newly created file was not among the artifacts, so afterwards every sink's file is listed exactly once and no two sinks share a file. |
| RouterCsv.WriteKeepsInv | suitcase/Csv/__init__.py:257-261 | Appending a table whose header flag follows the once-per-stream rule, and marking the stream, keeps the invariant. |
| RouterCsv.Close | suitcase/Csv/__init__.py:263-267 | Every sink is closed with its contents and name kept. Nothing else changes. |
| RouterCsvRun.Run | suitcase/Csv/__init__.py:92-94 | Feeding documents in order keeps the invariant. The configuration is unchanged, and files and artifacts only grow. |
| RouterCsvRun.Export | suitcase/Csv/__init__.py:91-98 | Export fails exactly when some document raises, and with that error. Either way the serializer is closed, every file is closed, each has a header only on its first table and only rank-1 and `seq_num` columns, no two streams share a file, and every file is among the returned artifacts. |
| RouterCsvRun.CloseFinishes | suitcase/Csv/__init__.py:263-267 | Closing a serializer that satisfies the invariant leaves every file closed, keeps the header-once and column rules, and keeps the files distinct and registered. |
| RouterCsvRun.RaisedPersists | suitcase/Csv/__init__.py:92-96 | Once a document raises, no later document is handled and the run ends with that error. |
| RouterCsvRun.PassiveIgnored | suitcase/Csv/__init__.py:101 | The serializer defines no stop handler, so the run over any documents equals the run over the start, descriptor and page documents alone. |
| RouterCsvRun.StartSeen | suitcase/Csv/__init__.py:187-193 | After any start document, the run has raised or has the start marked as found. |
| RouterCsvRun.SecondStartRaises | suitcase/Csv/__init__.py:187-191 | Two or more start documents always make the run raise. |
| RouterCsvRun.StartFoundNeedsStart | suitcase/Csv/__init__.py:165-193 | The start is marked as found only after a start document arrived. |
| RouterCsvRun.DuplicateStartNeedsTwo | suitcase/Csv/__init__.py:187-191 | The duplicate-start error occurs only when at least two start documents arrived. |
| RouterCsvRun.PrefixFromStart | suitcase/Csv/__init__.py:193-196 | After a run that raised nothing, the start is marked as found iff a start document came, and the prefix is the template filled from the first start document. |
| RouterCsvRun.StreamNamesFollowDescriptors | suitcase/Csv/__init__.py:209-211 | After a run that raised nothing, each uid maps to the stream name of its latest descriptor. A uid never declared is unknown. |
| RouterCsvRun.UnregisteredPageRaises | suitcase/Csv/__init__.py:238 | A page whose descriptor uid was not declared before it makes the run raise. |
| RouterCsvRun.SinkContents | suitcase/Csv/__init__.py:240-261 | After a run that raised nothing, a stream has a file exactly when some page with a rank-1 field reached it. The file holds one table per such page in arrival order, with a header on the first only and only when headers are on. |
| InlineCsv.Init | suitcase/csv/__init__.py:51-60 | The loop starts with the given path, empty metadata, no files, counters or header marks, and the defaulted options. |
| InlineCsv.OnStart | suitcase/csv/__init__.py:64-68 | A second start raises and changes nothing. The first start is stored as it came. |
| InlineCsv.OnDescriptor | suitcase/csv/__init__.py:71-76 | The descriptor joins its stream's list even when it has no uid, in which case the handler raises and no file is opened. Otherwise the uid's entry becomes a fresh empty file named with the stream name and the uid's counter, and the counter goes up by one. A new uid goes at the end of `files`. Other uids are unchanged. |
| InlineCsv.DescriptorPath | suitcase/csv/__init__.py:74-75 | A descriptor's file name is the path, "_", the rendered stream name, "_", the counter in decimal, then ".csv". |
| InlineCsv.MetaPath | suitcase/csv/__init__.py:96 | The metadata file's name is the path followed by "_meta.json". |
| InlineCsv.MetaPathNotDescriptorPath | suitcase/csv/__init__.py:74-96 | The metadata file's name is never the name of a descriptor's data file. |
| InlineCsv.EventIndex | suitcase/csv/__init__.py:81-85 | A single time stamp gives the index holding just that stamp. A list of stamps gives exactly those stamps, for an event as well as a bulk event. Only a bulk event with a single stamp is refused. |
| InlineCsv.OnEvent | suitcase/csv/__init__.py:77-91 | A missing `time`, then a missing `data`, then a bulk event with a single time stamp, then a missing `descriptor`, then an unknown descriptor uid each raise their own error, and nothing changes. Otherwise exactly one table is appended to the uid's file: indexed by the event's time stamp or stamps, one row each, every field a column, and a header iff headers are on and the uid was never written. The uid is marked as written, and nothing else changes. |
| InlineCsv.Step | suitcase/csv/__init__.py:62-92 | Every document keeps the invariant: one entry per uid, none closed, a header only on a file's first table, counters exactly for the uids with a file. A stop document is stored, replacing an earlier one. Other names change nothing. Files are never dropped. |
| InlineCsv.DescriptorKeepsInv | suitcase/csv/__init__.py:71-76 | Handling a descriptor keeps the invariant. |
| InlineCsv.OpenKeepsInv | suitcase/csv/__init__.py:74-76 | Giving a uid a fresh empty file and counting it keeps the invariant, whether or not the uid had a file before. |
| InlineCsv.EventKeepsInv | suitcase/csv/__init__.py:85-91 | Writing an event keeps the invariant. |
| InlineCsv.WriteKeepsInv | suitcase/csv/__init__.py:87-91 | Appending a table to a uid's file and marking the uid keeps the invariant when the table has a header exactly if headers are on and the uid was never written. |
| InlineCsv.CloseAll | suitcase/csv/__init__.py:93-95 | The `finally` clause closes every file in `files` and keeps their order and contents. |
| InlineCsv.Paths | suitcase/csv/__init__.py:98 | The returned file names are the names of the files in `files`, one each, in insertion order. |
| InlineCsvRun.Run | suitcase/csv/__init__.py:62-92 | The loop keeps the invariant, and the path and options are unchanged. |
| InlineCsvRun.Export | suitcase/csv/__init__.py:62-98 | Export fails exactly when some document raises, and with that error. Either way every file `files` holds is closed, one per uid. Only on completion does it return the metadata and, first, the metadata file's name, followed by the name of each file in `files` in order. |
| InlineCsvRun.CloseAllKeeps | suitcase/csv/__init__.py:93-95 | After the `finally` clause every file is closed, still one per uid, and keeps the name it was opened under. |
| InlineCsvRun.RaisedPersists | suitcase/csv/__init__.py:62-95 | Once a document raises, no later document is handled and the export ends with that error. |
| InlineCsvRun.UnknownNamesIgnored | suitcase/csv/__init__.py:63-77 | Pairs with any other name are skipped, so the loop over all pairs ends as the loop over the known ones alone. |
| InlineCsvRun.StartSeen | suitcase/csv/__init__.py:64-68 | After any start document, the export has raised or has a start stored. |
| InlineCsvRun.SecondStartRaises | suitcase/csv/__init__.py:65-67 | Two or more start documents always make the export raise. |
| InlineCsvRun.StartStoredNeedsStart | suitcase/csv/__init__.py:64-68 | A start is stored only after a start document arrived. |
| InlineCsvRun.DuplicateStartNeedsTwo | suitcase/csv/__init__.py:65-67 | The duplicate-start error occurs only when at least two start documents arrived. |
| InlineCsvRun.MetaFromDocs | suitcase/csv/__init__.py:64-73 | After a loop that raised nothing, the metadata holds the first start document, every descriptor of each stream in arrival order, and the last stop document. |
| InlineCsvRun.CounterCounts | suitcase/csv/__init__.py:74-75 | After a loop that raised nothing, each uid's counter equals the number of descriptors with that uid. |
| InlineCsvRun.FileOpened | suitcase/csv/__init__.py:76 | After a loop that raised nothing, a uid has a file exactly when a descriptor with that uid came. |
| InlineCsvRun.HeaderMarked | suitcase/csv/__init__.py:87-91 | After a loop that raised nothing, a uid is marked as written exactly when an event or bulk event for it came. |
| InlineCsvRun.CountersFromDocs | suitcase/csv/__init__.py:71-91 | The three facts above together, for any uid. |
| InlineCsvRun.DescriptorFileNumber | suitcase/csv/__init__.py:74-76 | A descriptor's file is named with the number of earlier descriptors with the same uid, counting from 0. The file replaces any earlier one for that uid. |
| InlineCsvRun.DescriptorPathsDiffer | suitcase/csv/__init__.py:74-75 | Two files of one stream with different counter values have different names. |
| InlineCsvRun.WriteHeader | suitcase/csv/__init__.py:87-91 | An event appends exactly one table to its uid's file, with a header iff headers are on and no earlier event for that uid was written. |
| InlineCsvRun.UnknownDescriptorRaises | suitcase/csv/__init__.py:90 | An event whose descriptor uid had no descriptor before it makes the export raise. |

## Left out

- File-system I/O is not modelled. A file is a record of its name, whether it is closed, and the tables written to it. The text `to_csv` produces is not modelled: quoting, number formatting, and the index label and mode options. These options are carried in the state but do not shape any output.
- The destination manager of `suitcase/Csv` (`MultiFileManager`, memory buffers, the output directory) is not modelled. Its artifacts dict, from label to file names, is collapsed to the one list under the label `stream_data`, the only label this serializer uses. The exclusive create is checked only against files this serializer created. A file already on disk is outside the model.
- `str.format` on the file prefix is a parameter of the model: a function from template and start document to a filled template, or to nothing when formatting raises.
- `event_model.verify_filled` and the router that turns events and bulk events into event pages belong to the `event_model` library. They are not part of this model. The `suitcase/Csv` model receives event pages directly, and document kinds the serializer does not handle stand as `Other`.
- RouterCsv.OnDescriptor: a descriptor without a `uid` key (a `KeyError` in the source) is not modelled. The descriptor's uid is a field of the document, as in every descriptor the router delivers.
- RouterCsv.PageTable: the validation pandas performs when building a table (every column as long as the index) is not modelled. The table is built as given.
- InlineCsv.OnEvent: of the errors pandas can raise when building a table, only a bulk event whose time is a single stamp is modelled (as `MalformedTime`). Length mismatches between the index and the data are not.
- InlineCsv.OnDescriptor: files that share a path are not modelled as sharing content. When two uids of one stream open the same `<filepath>_<stream>_0.csv`, the second `open(..., 'w+')` truncates the file the first handle is still writing. A sink's `chunks` records what that one handle was asked to write, not what the file holds on disk. The returned tuple then names that path twice.
- Opening a file in `suitcase/csv` (mode `w+`) is assumed to succeed, and it starts the file empty. A failure to open or to write the metadata file is not modelled.
- The JSON encoding of the metadata is not modelled. `InlineCsvRun.Export` returns the metadata record itself.
- Exceptions raised by the document generator are not modelled. Only handler errors end a run early.
- Numbers are mathematical reals: there is no NaN and no floating-point rounding.
- Version strings (`_version`) and the test modules are not part of this model.

=== FILE: common.dfy ===
/**
 Vocabulary shared by both CSV exporters: field values as numpy sees them, the
 abstract record of one `DataFrame.to_csv` call, an output sink, the keyword
 defaults both exporters install, and the decimal rendering used in file names.
 */
module Common {
  import opened Optional
  import opened Dicts

  datatype Scalar = Number(x: real) | Text(text: string)

  /** A field's value as `numpy.asarray` sees it: its shape (so `ndim` is the
      length of the shape) and its flattened contents. */
  datatype Array = Array(shape: seq<nat>, cells: seq<Scalar>) {
    function Rank(): nat { |shape| }
  }

  /** One entry of a document's `data` mapping. */
  datatype Field = Field(name: string, value: Array)

  /** A table column: a field's values, or the trailing sequence numbers. */
  datatype ColumnData = Values(content: Array) | SeqNums(nums: seq<int>)

  type Column = Entry<string, ColumnData>

  /** One call of the tabular encoder (`DataFrame.to_csv`): whether it emits a
      header row, the row index, and the named columns in table order. Text
      encoding itself is outside the model. */
  datatype Chunk = Chunk(header: bool, index: seq<real>, columns: seq<Column>) {
    function Rows(): nat { |index| }
  }

  /** An opened output file: its name, whether it has been closed, and every
      chunk written to it, oldest first. */
  datatype Sink = Sink(path: string, closed: bool, chunks: seq<Chunk>) {
    function Write(c: Chunk): Sink { this.(chunks := chunks + [c]) }
    function Close(): Sink { this.(closed := true) }
  }

  /** A document payload that the exporters pass on without looking inside. */
  type Metadata = map<string, string>

  /** `doc.get('name')` of a descriptor: absent names are Python's None. */
  type StreamName = Option<string>

  /** How an f-string renders a stream name: the name itself, or the text
      "None" for a descriptor without one. */
  function Render(name: StreamName): (r: string)
    ensures name.Some? ==> r == name.value
    ensures name.None? ==> r == "None"
  {
    match name
    case Some(s) => s
    case None => "None"
  }

  /** Two stream names render alike exactly when they are equal, or when one is
      missing and the other is the text "None". */
  lemma RenderEqual(a: StreamName, b: StreamName)
    ensures Render(a) == Render(b) <==>
              (a == b || (a.None? && b == Some("None")) || (b.None? && a == Some("None")))
  {
  }

  /** The middle part of a three-part string can be read back off it. */
  lemma Middle(a: string, b: string, c: string)
    ensures (a + b + c)[|a|..|a| + |b|] == b
    ensures (a + b + c)[..|a|] == a
    ensures (a + b + c)[|a| + |b|..] == c
  {
  }

  /** The keyword arguments both exporters hand to `to_csv`. */
  datatype CsvOptions = CsvOptions(header: bool, indexLabel: string, mode: string)

  const DefaultHeader: bool := true
  const DefaultIndexLabel: string := "time"
  const DefaultMode: string := "a"

  /** `kwargs.setdefault(...)` for header, index_label and mode: a value the
      caller passed wins, an absent one takes the default. */
  function SetDefaults(header: Option<bool>, indexLabel: Option<string>, mode: Option<string>): (o: CsvOptions)
    ensures header.Some? ==> o.header == header.value
    ensures header.None? ==> o.header == DefaultHeader
    ensures indexLabel.Some? ==> o.indexLabel == indexLabel.value
    ensures indexLabel.None? ==> o.indexLabel == DefaultIndexLabel
    ensures mode.Some? ==> o.mode == mode.value
    ensures mode.None? ==> o.mode == DefaultMode
  {
    CsvOptions(header.GetOr(DefaultHeader), indexLabel.GetOr(DefaultIndexLabel), mode.GetOr(DefaultMode))
  }

  function FieldNames(fields: seq<Field>): seq<string>
  {
    seq(|fields|, i requires 0 <= i < |fields| => fields[i].name)
  }

  /** The columns of `DataFrame(dict(fields))`: one per field, in order. */
  function FieldColumns(fields: seq<Field>): (cs: seq<Column>)
    ensures |cs| == |fields|
    ensures forall i :: 0 <= i < |fields| ==> cs[i] == Entry(fields[i].name, Values(fields[i].value))
  {
    seq(|fields|, i requires 0 <= i < |fields| => Entry(fields[i].name, Values(fields[i].value)))
  }

  lemma FieldColumnsKeys(fields: seq<Field>)
    ensures Keys(FieldColumns(fields)) == FieldNames(fields)
  {
  }

  function Digit(d: nat): char
    requires d < 10
  {
    "0123456789"[d]
  }

  function DigitValue(c: char): nat
  {
    if '0' <= c <= '9' then (c - '0') as nat else 0
  }

  predicate IsDigits(s: string)
  {
    forall i :: 0 <= i < |s| ==> '0' <= s[i] <= '9'
  }

  /** Python's `str(n)` for a natural number (the counter in a file name). */
  function Decimal(n: nat): (s: string)
    ensures |s| >= 1 && IsDigits(s)
    ensures s[0] == '0' <==> n == 0
  {
    if n < 10 then [Digit(n)]
    else
      var prefix := Decimal(n / 10);
      prefix + [Digit(n % 10)]
  }

  /** The number a string of decimal digits denotes. */
  function DecimalValue(s: string): nat
  {
    if s == [] then 0 else DecimalValue(s[..|s| - 1]) * 10 + DigitValue(s[|s| - 1])
  }

  /** Rendering a counter in decimal loses nothing: it reads back as itself,
      so distinct counters give distinct file names. */
  lemma {:induction false} DecimalRoundTrip(n: nat)
    ensures DecimalValue(Decimal(n)) == n
  {
    var s := Decimal(n);
    if n < 10 {
      assert s[..|s| - 1] == [];
    } else {
      assert s[..|s| - 1] == Decimal(n / 10);
      DecimalRoundTrip(n / 10);
    }
  }

  lemma DecimalInjective(m: nat, n: nat)
    ensures Decimal(m) == Decimal(n) ==> m == n
  {
    DecimalRoundTrip(m);
    DecimalRoundTrip(n);
  }
}

=== FILE: dicts.dfy ===
/**
 An insertion-ordered dictionary, the way Python's `dict` (and a pandas
 `DataFrame`'s column index) behaves: assigning to an existing key replaces the
 value where it stands, assigning to a new key appends it at the end.
 */
module Dicts {

  import opened Optional

  datatype Entry<K, V> = Entry(key: K, value: V)

  /** Keys in insertion order. */
  function Keys<K, V>(es: seq<Entry<K, V>>): seq<K>
  {
    seq(|es|, i requires 0 <= i < |es| => es[i].key)
  }

  /** `d.get(k)`: the value stored under key k, if any. The dictionaries the
      exporters keep never hold a key twice, so that value is the only one. */
  function Get<K(==, !new), V>(es: seq<Entry<K, V>>, k: K): (r: Option<V>)
    ensures r.Some? <==> k in Keys(es)
    ensures r.Some? ==> exists i :: 0 <= i < |es| && es[i] == Entry(k, r.value)
  {
    if es == [] then None
    else if es[0].key == k then
      assert Keys(es)[0] == k;
      Some(es[0].value)
    else
      assert Keys(es) == [es[0].key] + Keys(es[1..]);
      var r := Get(es[1..], k);
      assert r.Some? ==> exists i :: 0 <= i < |es[1..]| && es[1..][i] == Entry(k, r.value);
      r
  }

  /** Every entry with key k gets value v; the others stay where they are. */
  function Replace<K(==, !new), V>(es: seq<Entry<K, V>>, k: K, v: V): (r: seq<Entry<K, V>>)
    ensures |r| == |es|
    ensures forall i :: 0 <= i < |es| ==> r[i] == (if es[i].key == k then Entry(k, v) else es[i])
  {
    seq(|es|, i requires 0 <= i < |es| => if es[i].key == k then Entry(k, v) else es[i])
  }

  /** `d[k] = v`. */
  function Put<K(==, !new), V>(es: seq<Entry<K, V>>, k: K, v: V): (r: seq<Entry<K, V>>)
    ensures k in Keys(es) ==> Keys(r) == Keys(es)
    ensures k !in Keys(es) ==> Keys(r) == Keys(es) + [k]
    ensures k in Keys(es) ==> r == Replace(es, k, v)
    ensures k !in Keys(es) ==> r == es + [Entry(k, v)]
    ensures Get(r, k) == Some(v)
    ensures forall k' :: k' != k ==> Get(r, k') == Get(es, k')
  {
    if k in Keys(es) then
      var r := Replace(es, k, v);
      assert Keys(r) == Keys(es);
      ReplaceGet(es, k, v);
      r
    else
      var r := es + [Entry(k, v)];
      assert Keys(r) == Keys(es) + [k];
      AppendGet(es, k, v);
      r
  }

  lemma {:induction false} ReplaceGet<K(!new), V>(es: seq<Entry<K, V>>, k: K, v: V)
    requires k in Keys(es)
    ensures Get(Replace(es, k, v), k) == Some(v)
    ensures forall k' :: k' != k ==> Get(Replace(es, k, v), k') == Get(es, k')
    decreases |es|
  {
    var r := Replace(es, k, v);
    if es[0].key != k {
      assert Keys(es) == [es[0].key] + Keys(es[1..]);
      assert r[1..] == Replace(es[1..], k, v);
      ReplaceGet(es[1..], k, v);
    } else if |es| > 1 && k in Keys(es[1..]) {
      assert r[1..] == Replace(es[1..], k, v);
      ReplaceGet(es[1..], k, v);
    } else {
      assert r[1..] == Replace(es[1..], k, v);
      ReplaceAbsent(es[1..], k, v);
    }
  }

  lemma ReplaceAbsent<K(!new), V>(es: seq<Entry<K, V>>, k: K, v: V)
    requires k !in Keys(es)
    ensures Replace(es, k, v) == es
  {
    assert forall i :: 0 <= i < |es| ==> Keys(es)[i] == es[i].key;
  }

  lemma {:induction false} AppendGet<K(!new), V>(es: seq<Entry<K, V>>, k: K, v: V)
    requires k !in Keys(es)
    ensures Get(es + [Entry(k, v)], k) == Some(v)
    ensures forall k' :: k' != k ==> Get(es + [Entry(k, v)], k') == Get(es, k')
    decreases |es|
  {
    if es != [] {
      assert (es + [Entry(k, v)])[1..] == es[1..] + [Entry(k, v)];
      assert Keys(es) == [es[0].key] + Keys(es[1..]);
      AppendGet(es[1..], k, v);
    }
  }
}

=== FILE: inline_csv.dfy ===
/**
 The inline exporter (suitcase/csv): one loop over `(name, document)` pairs
 that dispatches on the name. Files and header marks are keyed by descriptor
 uid, every field of an event is written (there is no rank filter), a stop
 document is kept in the metadata, and names it does not know are ignored.
 */
module InlineCsv {
  import opened Optional
  import opened Dicts
  import opened Common

  const StartName: string := "start"
  const StopName: string := "stop"
  const DescriptorName: string := "descriptor"
  const EventName: string := "event"
  const BulkEventName: string := "bulk_event"

  /** A document's `time`: one stamp (an event) or a list of them (a bulk event). */
  datatype Time = At(stamp: real) | Series(stamps: seq<real>)

  /** A document as this exporter reads it: the keys it looks up, each of which
      may be missing, and the rest of the payload, which it only stores. */
  datatype Doc = Doc(
    uid: Option<string>,
    name: StreamName,
    descriptor: Option<string>,
    time: Option<Time>,
    data: Option<seq<Field>>,
    rest: Metadata)

  datatype Named = Named(name: string, doc: Doc)

  /** The metadata later written as JSON: the start document, the descriptors
      of each stream in arrival order, and the stop document. */
  datatype Meta = Meta(start: Option<Doc>, descriptors: map<StreamName, seq<Doc>>, stop: Option<Doc>)

  /** The loop's variables. `files` maps a descriptor uid to its open file in
      insertion order; `counters` is the per-uid file counter; `hasHeader` holds
      the uids that have been written to. */
  datatype State = State(
    filepath: string,
    options: CsvOptions,
    meta: Meta,
    files: seq<Entry<string, Sink>>,
    counters: map<string, nat>,
    hasHeader: set<string>)

  datatype Error =
    | DuplicateStart
    | MissingKey(key: string)
    | MalformedTime
    | UnknownDescriptor(uid: string)

  /** The outcome of handling one document; a raised error carries the state
      the loop is left in. */
  datatype Result = Ok(state: State) | Raised(error: Error, state: State)

  /** `meta['descriptors'][name]`, empty for a stream not seen yet. */
  function DescriptorsOf(m: Meta, name: StreamName): seq<Doc>
  {
    if name in m.descriptors then m.descriptors[name] else []
  }

  /** How many files uid has had so far (`desc_counters[uid]`). */
  function Counter(s: State, uid: string): nat
  {
    if uid in s.counters then s.counters[uid] else 0
  }

  /** The file opened for the k-th descriptor (counting from 0) with one uid:
      the path, "_", the rendered stream name, "_", the counter in decimal, then
      ".csv". */
  function DescriptorPath(filepath: string, name: StreamName, k: nat): (path: string)
    ensures |path| == |filepath| + |Render(name)| + |Decimal(k)| + 6
    ensures path[..|filepath| + 1] == filepath + "_"
    ensures path[|filepath| + 1..|filepath| + 1 + |Render(name)|] == Render(name)
    ensures path[|path| - 4 - |Decimal(k)|..|path| - 4] == Decimal(k)
    ensures path[|path| - 4..] == ".csv"
  {
    var head := filepath + "_" + Render(name) + "_";
    Middle(filepath + "_", Render(name), "_" + Decimal(k) + ".csv");
    Middle(head, Decimal(k), ".csv");
    assert head + Decimal(k) + ".csv" == (filepath + "_") + Render(name) + ("_" + Decimal(k) + ".csv");
    head + Decimal(k) + ".csv"
  }

  /** Where the run's metadata goes: `filepath + "_meta.json"`. */
  function MetaPath(filepath: string): (path: string)
    ensures |path| == |filepath| + 10
    ensures path[..|filepath|] == filepath
    ensures path[|filepath|..] == "_meta.json"
  {
    filepath + "_meta.json"
  }

  /** The metadata file never takes the name of a stream's data file: one
      ends in "json", the other in ".csv". */
  lemma MetaPathNotDescriptorPath(filepath: string, name: StreamName, k: nat)
    ensures MetaPath(filepath) != DescriptorPath(filepath, name, k)
  {
    var m, d := MetaPath(filepath), DescriptorPath(filepath, name, k);
    assert m[|m| - 4..] == "json" by {
      assert m[|m| - 4..] == m[|filepath|..][6..];
    }
    assert m[|m| - 4] != d[|d| - 4] by {
      assert m[|m| - 4] == m[|m| - 4..][0];
      assert d[|d| - 4] == d[|d| - 4..][0];
    }
  }

  predicate DistinctKeys<V>(es: seq<Entry<string, V>>)
  {
    forall i, j :: 0 <= i < j < |es| ==> es[i].key != es[j].key
  }

  /** What holds between documents: one file per uid, none closed, a header
      only ever on a file's first chunk and only when headers are on, header
      marks only for uids with a file and on every uid whose file has been
      written to, and a counter of at least 1 exactly for
      the uids with a file. */
  ghost predicate Inv(s: State)
  {
    && DistinctKeys(s.files)
    && (forall i :: 0 <= i < |s.files| ==> !s.files[i].value.closed)
    && (forall i, j :: 0 <= i < |s.files| && 0 <= j < |s.files[i].value.chunks| && s.files[i].value.chunks[j].header ==>
          j == 0 && s.options.header)
    && (forall u :: u in s.hasHeader ==> u in Keys(s.files))
    && (forall i :: 0 <= i < |s.files| && s.files[i].value.chunks != [] ==> s.files[i].key in s.hasHeader)
    && (forall u :: u in Keys(s.files) <==> u in s.counters)
    && (forall u :: u in s.counters ==> s.counters[u] >= 1)
  }

  /** The start of the export: empty metadata, no files, header/index_label/mode
      defaulted to True/"time"/"a". */
  function Init(filepath: string, header: Option<bool>, indexLabel: Option<string>, mode: Option<string>): (s: State)
    ensures Inv(s)
    ensures s.filepath == filepath
    ensures s.options == SetDefaults(header, indexLabel, mode)
    ensures s.meta == Meta(None, map[], None) && s.files == [] && s.counters == map[] && s.hasHeader == {}
  {
    State(filepath, SetDefaults(header, indexLabel, mode), Meta(None, map[], None), [], map[], {})
  }

  /** `start`: a second start is refused; the first is stored as it came. */
  function OnStart(s: State, doc: Doc): (r: Result)
    ensures s.meta.start.Some? ==> r == Raised(DuplicateStart, s)
    ensures s.meta.start.None? ==> r == Ok(s.(meta := s.meta.(start := Some(doc))))
  {
    if s.meta.start.Some? then Raised(DuplicateStart, s)
    else Ok(s.(meta := s.meta.(start := Some(doc))))
  }

  /** `descriptor`: append the document to its stream's list, then open a new
      file for its uid named with the uid's counter, which then goes up by one.
      A uid that already had a file gets the new file in the old one's place. */
  function OnDescriptor(s: State, doc: Doc): (r: Result)
    ensures DescriptorsOf(r.state.meta, doc.name) == DescriptorsOf(s.meta, doc.name) + [doc]
    ensures forall n :: n != doc.name ==> DescriptorsOf(r.state.meta, n) == DescriptorsOf(s.meta, n)
    ensures r.state.meta.start == s.meta.start && r.state.meta.stop == s.meta.stop
    ensures r.Raised? <==> doc.uid.None?
    ensures r.Raised? ==> r.error == MissingKey("uid") && r.state.files == s.files
    ensures r.Ok? ==>
              var u := doc.uid.value;
              && Get(r.state.files, u) == Some(Sink(DescriptorPath(s.filepath, doc.name, Counter(s, u)), false, []))
              && (forall v :: v != u ==> Get(r.state.files, v) == Get(s.files, v))
              && (u in Keys(s.files) ==> Keys(r.state.files) == Keys(s.files))
              && (u !in Keys(s.files) ==> Keys(r.state.files) == Keys(s.files) + [u])
              && Counter(r.state, u) == Counter(s, u) + 1
              && (forall v :: v != u ==> Counter(r.state, v) == Counter(s, v))
    ensures r.state.hasHeader == s.hasHeader && r.state.options == s.options && r.state.filepath == s.filepath
  {
    var listed := s.(meta := s.meta.(descriptors := s.meta.descriptors[doc.name := DescriptorsOf(s.meta, doc.name) + [doc]]));
    match doc.uid
    case None => Raised(MissingKey("uid"), listed)
    case Some(u) =>
      var k := Counter(s, u);
      var sink := Sink(DescriptorPath(s.filepath, doc.name, k), false, []);
      Ok(listed.(counters := s.counters[u := k + 1], files := Put(s.files, u, sink)))
  }

  /** The row index of an event (`[doc['time']]`) or a bulk event
      (`doc['time']`). An event whose time is a list gets an index of one level
      holding those stamps, one row each; a bulk event whose time is one stamp
      cannot be made an index, and is refused. */
  function EventIndex(name: string, time: Time): (index: Option<seq<real>>)
    requires name == EventName || name == BulkEventName
    ensures index.None? <==> name == BulkEventName && time.At?
    ensures index.Some? && time.At? ==> index.value == [time.stamp]
    ensures index.Some? && time.Series? ==> index.value == time.stamps
  {
    match time
    case At(t) => if name == EventName then Some([t]) else None
    case Series(ts) => Some(ts)
  }

  /** `event` / `bulk_event`: one row, or one row per time stamp, with every
      field as a column, appended to the file of the event's descriptor uid;
      a header only on the uid's first write, and only when headers are on. */
  function OnEvent(s: State, name: string, doc: Doc): (r: Result)
    requires name == EventName || name == BulkEventName
    ensures r.Raised? ==> r.state == s
    ensures doc.time.None? ==> r == Raised(MissingKey("time"), s)
    ensures doc.time.Some? && doc.data.None? ==> r == Raised(MissingKey("data"), s)
    ensures doc.time.Some? && doc.data.Some? && EventIndex(name, doc.time.value).None? ==> r == Raised(MalformedTime, s)
    ensures doc.time.Some? && doc.data.Some? && EventIndex(name, doc.time.value).Some? && doc.descriptor.None? ==>
              r == Raised(MissingKey("descriptor"), s)
    ensures doc.time.Some? && EventIndex(name, doc.time.value).Some? && doc.data.Some? && doc.descriptor.Some? ==>
              && (r.Raised? <==> doc.descriptor.value !in Keys(s.files))
              && (r.Raised? ==> r.error == UnknownDescriptor(doc.descriptor.value))
    ensures r.Ok? ==>
              && doc.time.Some? && EventIndex(name, doc.time.value).Some? && doc.data.Some? && doc.descriptor.Some?
              && var u := doc.descriptor.value;
              var index := EventIndex(name, doc.time.value).value;
              var chunk := Chunk(s.options.header && u !in s.hasHeader, index, FieldColumns(doc.data.value));
              && u in Keys(s.files)
              && Get(r.state.files, u) == Some(Get(s.files, u).value.Write(chunk))
              && Keys(r.state.files) == Keys(s.files)
              && (forall v :: v != u ==> Get(r.state.files, v) == Get(s.files, v))
              && (doc.time.value.At? ==> chunk.index == [doc.time.value.stamp] && chunk.Rows() == 1)
              && (doc.time.value.Series? ==> chunk.index == doc.time.value.stamps)
              && r.state == s.(files := r.state.files, hasHeader := s.hasHeader + {u})
  {
    match doc.time
    case None => Raised(MissingKey("time"), s)
    case Some(time) =>
      match doc.data
      case None => Raised(MissingKey("data"), s)
      case Some(data) =>
        match EventIndex(name, time)
        case None => Raised(MalformedTime, s)
        case Some(index) =>
          match doc.descriptor
          case None => Raised(MissingKey("descriptor"), s)
          case Some(u) =>
            match Get(s.files, u)
            case None => Raised(UnknownDescriptor(u), s)
            case Some(sink) =>
              var chunk := Chunk(s.options.header && u !in s.hasHeader, index, FieldColumns(data));
              Ok(s.(files := Put(s.files, u, sink.Write(chunk)), hasHeader := s.hasHeader + {u}))
  }

  predicate IsEvent(name: string)
  {
    name == EventName || name == BulkEventName
  }

  /** One pass of the loop: dispatch on the name; `stop` is stored (a later one
      replaces it) and any other name leaves everything unchanged. */
  function Step(s: State, d: Named): (r: Result)
    ensures Inv(s) ==> Inv(r.state)
    ensures r.state.filepath == s.filepath && r.state.options == s.options
    ensures d.name == StopName ==> r == Ok(s.(meta := s.meta.(stop := Some(d.doc))))
    ensures !(d.name in {StartName, StopName, DescriptorName, EventName, BulkEventName}) ==> r == Ok(s)
    ensures d.name != StartName ==> r.state.meta.start == s.meta.start
    ensures d.name != DescriptorName ==> r.state.meta.descriptors == s.meta.descriptors && r.state.counters == s.counters
    ensures !IsEvent(d.name) ==> r.state.hasHeader == s.hasHeader
    ensures Keys(s.files) <= Keys(r.state.files)
  {
    if d.name == StartName then OnStart(s, d.doc)
    else if d.name == StopName then Ok(s.(meta := s.meta.(stop := Some(d.doc))))
    else if d.name == DescriptorName then
      var r := OnDescriptor(s, d.doc);
      assert Inv(s) ==> Inv(r.state) by {
        if Inv(s) && r.Ok? {
          DescriptorKeepsInv(s, d.doc);
        }
      }
      r
    else if IsEvent(d.name) then
      var r := OnEvent(s, d.name, d.doc);
      assert Inv(s) ==> Inv(r.state) by {
        if Inv(s) && r.Ok? {
          EventKeepsInv(s, d.name, d.doc);
        }
      }
      r
    else Ok(s)
  }

  /** An event or bulk event for a uid that has no file always raises, whatever
      else the document holds. */
  lemma EventWithoutFileRaises(s: State, d: Named)
    requires IsEvent(d.name) && d.doc.descriptor.Some? && d.doc.descriptor.value !in Keys(s.files)
    ensures Step(s, d).Raised?
  {
    assert Step(s, d) == OnEvent(s, d.name, d.doc);
  }

  lemma PutKeepsDistinct<V>(es: seq<Entry<string, V>>, k: string, v: V)
    requires DistinctKeys(es)
    ensures DistinctKeys(Put(es, k, v))
  {
    var r := Put(es, k, v);
    forall i, j | 0 <= i < j < |r|
      ensures r[i].key != r[j].key
    {
      assert Keys(r)[i] == r[i].key && Keys(r)[j] == r[j].key;
      if k !in Keys(es) && j == |es| {
        assert Keys(es)[i] == es[i].key;
      } else {
        assert Keys(es)[i] == es[i].key && Keys(es)[j] == es[j].key;
      }
    }
  }

  lemma DescriptorKeepsInv(s: State, doc: Doc)
    requires Inv(s) && OnDescriptor(s, doc).Ok?
    ensures Inv(OnDescriptor(s, doc).state)
  {
    var u := doc.uid.value;
    OpenKeepsInv(s, u, Sink(DescriptorPath(s.filepath, doc.name, Counter(s, u)), false, []));
  }

  /** Giving uid u a fresh, empty, open file and counting it keeps the
      invariant, whether or not u had a file before. */
  lemma OpenKeepsInv(s: State, u: string, sink: Sink)
    requires Inv(s) && sink.chunks == [] && !sink.closed
    ensures Inv(s.(counters := s.counters[u := Counter(s, u) + 1], files := Put(s.files, u, sink)))
  {
    var t := s.(counters := s.counters[u := Counter(s, u) + 1], files := Put(s.files, u, sink));
    PutKeepsDistinct(s.files, u, sink);
    forall i, j | 0 <= i < |t.files| && 0 <= j < |t.files[i].value.chunks| && t.files[i].value.chunks[j].header
      ensures j == 0 && s.options.header
    {
      FreshOrOld(s.files, u, sink, i);
      assert i < |s.files| && t.files[i] == s.files[i];
    }
    forall i | 0 <= i < |t.files|
      ensures !t.files[i].value.closed
    {
      FreshOrOld(s.files, u, sink, i);
    }
    forall i | 0 <= i < |t.files| && t.files[i].value.chunks != []
      ensures t.files[i].key in t.hasHeader
    {
      FreshOrOld(s.files, u, sink, i);
    }
    assert forall v :: v in Keys(t.files) <==> v in Keys(s.files) || v == u;
    assert forall v :: v in t.hasHeader ==> v in Keys(t.files);
    assert forall v :: v in Keys(t.files) <==> v in t.counters;
    assert forall v :: v in t.counters ==> t.counters[v] >= 1;
  }

  /** Each entry after `Put` is the new value or an entry that was there. */
  lemma FreshOrOld<V>(es: seq<Entry<string, V>>, k: string, v: V, i: nat)
    requires i < |Put(es, k, v)|
    ensures Put(es, k, v)[i] == Entry(k, v) || (i < |es| && Put(es, k, v)[i] == es[i])
  {
  }

  lemma EventKeepsInv(s: State, name: string, doc: Doc)
    requires IsEvent(name)
    requires Inv(s) && OnEvent(s, name, doc).Ok?
    ensures Inv(OnEvent(s, name, doc).state)
  {
    var u := doc.descriptor.value;
    var index := EventIndex(name, doc.time.value).value;
    var chunk := Chunk(s.options.header && u !in s.hasHeader, index, FieldColumns(doc.data.value));
    WriteKeepsInv(s, u, Get(s.files, u).value, chunk);
  }

  /** Appending a table to uid u's file and marking u keeps the invariant when
      the table has a header exactly if headers are on and u was never written. */
  lemma WriteKeepsInv(s: State, u: string, sink: Sink, chunk: Chunk)
    requires Inv(s) && Get(s.files, u) == Some(sink)
    requires chunk.header == (s.options.header && u !in s.hasHeader)
    ensures Inv(s.(files := Put(s.files, u, sink.Write(chunk)), hasHeader := s.hasHeader + {u}))
  {
    var sink' := sink.Write(chunk);
    var t := s.(files := Put(s.files, u, sink'), hasHeader := s.hasHeader + {u});
    PutKeepsDistinct(s.files, u, sink');
    var m :| 0 <= m < |s.files| && s.files[m] == Entry(u, sink);
    forall i, j | 0 <= i < |t.files| && 0 <= j < |t.files[i].value.chunks| && t.files[i].value.chunks[j].header
      ensures j == 0 && s.options.header
    {
      FreshOrOld(s.files, u, sink', i);
      if t.files[i] == Entry(u, sink') {
        assert sink'.chunks == sink.chunks + [chunk];
        assert sink.chunks != [] ==> u in s.hasHeader;
        if j < |sink.chunks| {
          assert s.files[m].value.chunks[j].header;
        }
      }
    }
    forall i | 0 <= i < |t.files| && t.files[i].value.chunks != []
      ensures t.files[i].key in t.hasHeader
    {
      FreshOrOld(s.files, u, sink', i);
    }
    forall i | 0 <= i < |t.files|
      ensures !t.files[i].value.closed
    {
      FreshOrOld(s.files, u, sink', i);
    }
  }

  function CloseAll(files: seq<Entry<string, Sink>>): (r: seq<Entry<string, Sink>>)
    ensures Keys(r) == Keys(files)
    ensures forall i :: 0 <= i < |r| ==> r[i].value == files[i].value.Close()
  {
    seq(|files|, i requires 0 <= i < |files| => Entry(files[i].key, files[i].value.Close()))
  }

  function Paths(files: seq<Entry<string, Sink>>): (ps: seq<string>)
    ensures |ps| == |files|
    ensures forall i :: 0 <= i < |files| ==> ps[i] == files[i].value.path
  {
    seq(|files|, i requires 0 <= i < |files| => files[i].value.path)
  }
}

=== FILE: inline_csv_run.dfy ===
/**
 A whole export with the inline exporter: the loop over the document pairs,
 the `finally` that closes every file in `files`, the metadata written only
 when the loop completes, and the returned tuple of file names. The lemmas
 relate the loop's state to definitions read directly off the document pairs.
 */
module InlineCsvRun {
  import opened Optional
  import opened Dicts
  import opened Common
  import opened InlineCsv

  /** The loop's state after docs; the first error stops it. */
  function Run(s: State, docs: seq<Named>): (r: Result)
    ensures Inv(s) ==> Inv(r.state)
    ensures r.state.filepath == s.filepath && r.state.options == s.options
    decreases |docs|
  {
    if docs == [] then Ok(s)
    else
      match Run(s, docs[..|docs| - 1])
      case Raised(e, t) => Raised(e, t)
      case Ok(t) => Step(t, docs[|docs| - 1])
  }

  /** What `export` returns or raises, with `files` as the `finally` clause
      leaves them. The metadata is present only when the loop completed. */
  datatype Exported =
    | Exported(paths: seq<string>, meta: Meta, files: seq<Entry<string, Sink>>)
    | Failed(error: Error, files: seq<Entry<string, Sink>>)

  /** `export`: run the loop; whatever happens, close every file in `files`;
      only on completion write the metadata and return its file name followed
      by the name of each file in `files`, in insertion order. */
  method Export(docs: seq<Named>, filepath: string, header: Option<bool>, indexLabel: Option<string>,
                mode: Option<string>) returns (r: Exported)
    ensures var run := Run(Init(filepath, header, indexLabel, mode), docs);
      && r.files == CloseAll(run.state.files)
      && (r.Failed? <==> run.Raised?)
      && (r.Failed? ==> r.error == run.error)
      && (r.Exported? ==> r.meta == run.state.meta && r.paths == [MetaPath(filepath)] + Paths(run.state.files))
    ensures forall i :: 0 <= i < |r.files| ==> r.files[i].value.closed
    ensures DistinctKeys(r.files)
    ensures r.Exported? ==> |r.paths| == 1 + |r.files| && r.paths[0] == MetaPath(filepath)
    ensures r.Exported? ==> forall i :: 0 <= i < |r.files| ==> r.paths[i + 1] == r.files[i].value.path
  {
    var init := Init(filepath, header, indexLabel, mode);
    var s := init;
    var i := 0;
    while i < |docs|
      invariant 0 <= i <= |docs|
      invariant Run(init, docs[..i]) == Ok(s)
      invariant Inv(s)
    {
      RunSnoc(init, docs, i);
      var step := Step(s, docs[i]);
      if step.Raised? {
        RaisedPersists(init, docs, i + 1);
        CloseAllKeeps(step.state.files);
        r := Failed(step.error, CloseAll(step.state.files));
        return;
      }
      s := step.state;
      i := i + 1;
    }
    assert docs[..i] == docs;
    CloseAllKeeps(s.files);
    r := Exported([MetaPath(filepath)] + Paths(s.files), s.meta, CloseAll(s.files));
  }

  /** After the `finally` clause every file is closed and still one per uid,
      each with the name it was opened under. */
  lemma CloseAllKeeps(files: seq<Entry<string, Sink>>)
    requires DistinctKeys(files)
    ensures DistinctKeys(CloseAll(files))
    ensures forall i :: 0 <= i < |files| ==> CloseAll(files)[i].value.closed
    ensures forall i :: 0 <= i < |files| ==> CloseAll(files)[i].value.path == files[i].value.path
  {
    var r := CloseAll(files);
    assert |r| == |Keys(r)| == |Keys(files)| == |files|;
    forall i, j | 0 <= i < j < |r|
      ensures r[i].key != r[j].key
    {
      assert r[i].key == Keys(r)[i] == Keys(files)[i] == files[i].key;
      assert r[j].key == Keys(r)[j] == Keys(files)[j] == files[j].key;
    }
  }

  /** One more document: the loop over the first i + 1 documents is the step
      from the loop over the first i. */
  lemma RunSnoc(s: State, docs: seq<Named>, i: nat)
    requires i < |docs| && Run(s, docs[..i]).Ok?
    ensures Run(s, docs[..i + 1]) == Step(Run(s, docs[..i]).state, docs[i])
  {
    assert docs[..i + 1][..i] == docs[..i];
  }

  /** Once a prefix of the loop has raised, the loop as a whole ends there. */
  lemma {:induction false} RaisedPersists(s: State, docs: seq<Named>, n: nat)
    requires n <= |docs| && Run(s, docs[..n]).Raised?
    ensures Run(s, docs) == Run(s, docs[..n])
    decreases |docs| - n
  {
    if n < |docs| {
      var p := docs[..n + 1];
      assert p[..n] == docs[..n];
      RaisedPersists(s, docs, n + 1);
    } else {
      assert docs[..n] == docs;
    }
  }

  // ---- Reference definitions, read directly off the document pairs ----

  predicate IsKnown(name: string)
  {
    name in {StartName, StopName, DescriptorName, EventName, BulkEventName}
  }

  /** The pairs whose name the loop acts on, in order. */
  function Known(docs: seq<Named>): seq<Named>
  {
    if docs == [] then []
    else if IsKnown(docs[|docs| - 1].name) then Known(docs[..|docs| - 1]) + [docs[|docs| - 1]]
    else Known(docs[..|docs| - 1])
  }

  function Starts(docs: seq<Named>): nat
  {
    if docs == [] then 0
    else Starts(docs[..|docs| - 1]) + (if docs[|docs| - 1].name == StartName then 1 else 0)
  }

  function FirstStart(docs: seq<Named>): Option<Doc>
  {
    if docs == [] then None
    else if FirstStart(docs[..|docs| - 1]).Some? then FirstStart(docs[..|docs| - 1])
    else if docs[|docs| - 1].name == StartName then Some(docs[|docs| - 1].doc)
    else None
  }

  function LastStop(docs: seq<Named>): Option<Doc>
  {
    if docs == [] then None
    else if docs[|docs| - 1].name == StopName then Some(docs[|docs| - 1].doc)
    else LastStop(docs[..|docs| - 1])
  }

  /** The descriptor documents of stream n, in arrival order. */
  function DescriptorDocs(docs: seq<Named>, n: StreamName): seq<Doc>
  {
    if docs == [] then []
    else
      var d := docs[|docs| - 1];
      if d.name == DescriptorName && d.doc.name == n then DescriptorDocs(docs[..|docs| - 1], n) + [d.doc]
      else DescriptorDocs(docs[..|docs| - 1], n)
  }

  /** How many descriptor documents with this uid docs holds. */
  function UidCount(docs: seq<Named>, uid: string): nat
  {
    if docs == [] then 0
    else
      var d := docs[|docs| - 1];
      UidCount(docs[..|docs| - 1], uid) + (if d.name == DescriptorName && d.doc.uid == Some(uid) then 1 else 0)
  }

  /** How many event and bulk-event documents for this descriptor uid docs holds. */
  function Writes(docs: seq<Named>, uid: string): nat
  {
    if docs == [] then 0
    else
      var d := docs[|docs| - 1];
      Writes(docs[..|docs| - 1], uid) + (if IsEvent(d.name) && d.doc.descriptor == Some(uid) then 1 else 0)
  }

  // ---- Names ----

  /** Pairs with a name the loop does not know change nothing: the loop over
      docs ends exactly as the loop over the known pairs alone. */
  lemma {:induction false} UnknownNamesIgnored(s: State, docs: seq<Named>)
    ensures Run(s, docs) == Run(s, Known(docs))
  {
    if docs != [] {
      var p := docs[..|docs| - 1];
      var d := docs[|docs| - 1];
      UnknownNamesIgnored(s, p);
      if IsKnown(d.name) {
        assert (Known(p) + [d])[..|Known(p)|] == Known(p);
      }
    }
  }

  // ---- Start documents ----

  lemma {:induction false} StartSeen(s: State, docs: seq<Named>)
    requires Starts(docs) >= 1
    ensures Run(s, docs).Raised? || Run(s, docs).state.meta.start.Some?
  {
    var p := docs[..|docs| - 1];
    if Starts(p) >= 1 {
      StartSeen(s, p);
    }
  }

  /** A second start document always makes the export raise. */
  lemma {:induction false} SecondStartRaises(s: State, docs: seq<Named>)
    requires Starts(docs) >= 2
    ensures Run(s, docs).Raised?
  {
    var p := docs[..|docs| - 1];
    if Starts(p) >= 2 {
      SecondStartRaises(s, p);
    } else {
      StartSeen(s, p);
    }
  }

  lemma {:induction false} StartStoredNeedsStart(s: State, docs: seq<Named>)
    requires s.meta.start.None?
    ensures Run(s, docs).state.meta.start.Some? ==> Starts(docs) >= 1
  {
    if docs != [] {
      StartStoredNeedsStart(s, docs[..|docs| - 1]);
    }
  }

  /** The duplicate-start error is raised only when two start documents came. */
  lemma {:induction false} DuplicateStartNeedsTwo(s: State, docs: seq<Named>)
    requires s.meta.start.None?
    ensures Run(s, docs).Raised? && Run(s, docs).error == DuplicateStart ==> Starts(docs) >= 2
  {
    if docs != [] {
      var p := docs[..|docs| - 1];
      DuplicateStartNeedsTwo(s, p);
      StartStoredNeedsStart(s, p);
    }
  }

  // ---- Metadata ----

  /** After a loop that raised nothing, the metadata holds the first start
      document unchanged, every descriptor of each stream in arrival order, and
      the last stop document. */
  lemma {:induction false} MetaFromDocs(s: State, docs: seq<Named>)
    requires s.meta == Meta(None, map[], None)
    requires Run(s, docs).Ok?
    ensures var m := Run(s, docs).state.meta;
      && m.start == FirstStart(docs)
      && m.stop == LastStop(docs)
      && forall n :: DescriptorsOf(m, n) == DescriptorDocs(docs, n)
  {
    if docs != [] {
      MetaFromDocs(s, docs[..|docs| - 1]);
    }
  }

  // ---- Files, counters and headers ----

  /** After a loop that raised nothing, each uid's counter is the number of
      descriptors with that uid. */
  lemma {:induction false} CounterCounts(s: State, docs: seq<Named>, u: string)
    requires s.counters == map[]
    requires Run(s, docs).Ok?
    ensures Counter(Run(s, docs).state, u) == UidCount(docs, u)
  {
    if docs != [] {
      var p := docs[..|docs| - 1];
      CounterCounts(s, p, u);
    }
  }

  /** After a loop that raised nothing, a uid has a file exactly when a
      descriptor with that uid came. */
  lemma {:induction false} FileOpened(s: State, docs: seq<Named>, u: string)
    requires s.files == []
    requires Run(s, docs).Ok?
    ensures u in Keys(Run(s, docs).state.files) <==> UidCount(docs, u) > 0
  {
    if docs != [] {
      var p := docs[..|docs| - 1];
      var d := docs[|docs| - 1];
      FileOpened(s, p, u);
      var t := Run(s, p).state;
      var t' := Step(t, d).state;
      if d.name == DescriptorName {
        var v := d.doc.uid.value;
        assert Get(t'.files, u).Some? <==> (u == v || Get(t.files, u).Some?);
      }
    }
  }

  /** After a loop that raised nothing, a uid is marked as written exactly when
      an event for it came. */
  lemma {:induction false} HeaderMarked(s: State, docs: seq<Named>, u: string)
    requires s.hasHeader == {}
    requires Run(s, docs).Ok?
    ensures u in Run(s, docs).state.hasHeader <==> Writes(docs, u) > 0
  {
    if docs != [] {
      var p := docs[..|docs| - 1];
      HeaderMarked(s, p, u);
    }
  }

  lemma CountersFromDocs(s: State, docs: seq<Named>, u: string)
    requires s.files == [] && s.counters == map[] && s.hasHeader == {}
    requires Run(s, docs).Ok?
    ensures var t := Run(s, docs).state;
      && Counter(t, u) == UidCount(docs, u)
      && (u in Keys(t.files) <==> UidCount(docs, u) > 0)
      && (u in t.hasHeader <==> Writes(docs, u) > 0)
  {
    CounterCounts(s, docs, u);
    FileOpened(s, docs, u);
    HeaderMarked(s, docs, u);
  }

  /** The file a descriptor opens is numbered by how many descriptors with the
      same uid came before it, starting at 0. */
  lemma DescriptorFileNumber(s: State, docs: seq<Named>, d: Named)
    requires s.files == [] && s.counters == map[] && s.hasHeader == {} && Inv(s)
    requires Run(s, docs).Ok? && d.name == DescriptorName && d.doc.uid.Some?
    ensures var u := d.doc.uid.value;
      Get(Step(Run(s, docs).state, d).state.files, u)
        == Some(Sink(DescriptorPath(s.filepath, d.doc.name, UidCount(docs, u)), false, []))
  {
    CountersFromDocs(s, docs, d.doc.uid.value);
  }

  /** Distinct counters give distinct file names, so a uid's second file never
      reuses its first file's name. */
  lemma DescriptorPathsDiffer(filepath: string, name: StreamName, j: nat, k: nat)
    requires j != k
    ensures DescriptorPath(filepath, name, j) != DescriptorPath(filepath, name, k)
  {
    var head := filepath + "_" + Render(name) + "_";
    var a := Decimal(j);
    var b := Decimal(k);
    if DescriptorPath(filepath, name, j) == DescriptorPath(filepath, name, k) {
      assert head + a + ".csv" == head + b + ".csv";
      assert |a| == |b|;
      assert a == (head + a + ".csv")[|head|..|head| + |a|];
      assert b == (head + b + ".csv")[|head|..|head| + |b|];
      DecimalInjective(j, k);
    }
  }

  /** The header goes on an event's rows exactly when headers are on and no
      earlier event was written for the same descriptor uid: once per uid, not
      once per file. */
  lemma WriteHeader(s: State, docs: seq<Named>, d: Named)
    requires s.files == [] && s.counters == map[] && s.hasHeader == {} && Inv(s)
    requires Run(s, docs).Ok? && IsEvent(d.name)
    requires Step(Run(s, docs).state, d).Ok?
    ensures var t := Run(s, docs).state;
      var u := d.doc.descriptor.value;
      var before := Get(t.files, u).value.chunks;
      var after := Get(Step(t, d).state.files, u).value.chunks;
      && after == before + [after[|after| - 1]]
      && after[|after| - 1].header == (s.options.header && Writes(docs, u) == 0)
  {
    CountersFromDocs(s, docs, d.doc.descriptor.value);
  }

  /** An event whose descriptor uid had no descriptor before it makes the
      export raise, at that event or earlier. */
  lemma UnknownDescriptorRaises(s: State, docs: seq<Named>, i: nat)
    requires s.files == [] && s.counters == map[] && s.hasHeader == {} && Inv(s)
    requires i < |docs| && IsEvent(docs[i].name) && docs[i].doc.descriptor.Some?
    requires UidCount(docs[..i], docs[i].doc.descriptor.value) == 0
    ensures Run(s, docs).Raised?
  {
    var p := docs[..i + 1];
    assert p[..i] == docs[..i];
    if Run(s, docs[..i]).Ok? {
      FileOpened(s, docs[..i], docs[i].doc.descriptor.value);
      EventWithoutFileRaises(Run(s, docs[..i]).state, docs[i]);
      assert p[i] == docs[i];
    }
    assert Run(s, p).Raised?;
    RaisedPersists(s, docs, i + 1);
  }
}

=== FILE: optional.dfy ===
/** An optional value: Python's `None` or a value that is present. */
module Optional {

  datatype Option<+T> = None | Some(value: T) {

    /** The value of Some, or the default for None (Python's `dict.get(k, d)`). */
    function GetOr(default: T): T {
      match this
      case Some(v) => v
      case None => default
    }
  }
}

=== FILE: router_csv.dfy ===
/**
 The router-based serializer (suitcase/Csv): a document router whose handlers
 keep the state of one run's export. Event and bulk-event documents reach it
 already turned into event pages by the router base class, so the model's
 input is the page form. Sinks and stream names are keyed by the descriptor's
 stream name; only fields whose page-level array has rank exactly 1 are written.
 */
module RouterCsv {
  import opened Optional
  import opened Dicts
  import opened Common

  const DefaultFilePrefix: string := "{uid}-"
  const SeqNumColumn: string := "seq_num"

  /** An event page: the descriptor it belongs to, one time stamp and one
      sequence number per row, and the data fields. */
  datatype Page = Page(descriptor: string, time: seq<real>, seqNum: seq<int>, data: seq<Field>)

  /** The documents the router hands to the serializer. `Other` stands for the
      kinds (resource, datum, datum page) whose handlers the serializer does not
      override, so the router's do-nothing defaults run. */
  datatype Document =
    | Start(start: Metadata)
    | Descriptor(uid: string, name: StreamName, descriptor: Metadata)
    | EventPage(page: Page)
    | Stop(stop: Metadata)
    | Other(kind: string)

  /** `file_prefix.format(**start)`: None when the template cannot be filled. */
  type Formatter = (string, Metadata) -> Option<string>

  datatype Config = Config(filePrefix: string, options: CsvOptions)

  /** The serializer's fields. `files` maps a stream name to its sink,
      `hasHeader` holds the streams that have been written to, and `artifacts`
      lists the files created under the "stream_data" label, oldest first. */
  datatype State = State(
    config: Config,
    startFound: bool,
    templatedPrefix: string,
    streamNames: map<string, StreamName>,
    files: map<StreamName, Sink>,
    hasHeader: set<StreamName>,
    artifacts: seq<string>)

  datatype Error =
    | DuplicateStart
    | TemplateFailed
    | UnknownDescriptor(uid: string)
    | FileExists(path: string)

  /** The outcome of one handler call. A raised error carries the state the
      serializer is left in. */
  datatype Result = Ok(state: State) | Raised(error: Error, state: State)

  /** The chunks written so far to the sink of stream k. */
  function Chunks(s: State, k: StreamName): seq<Chunk>
  {
    if k in s.files then s.files[k].chunks else []
  }

  /** The name of the file a stream's sink gets when it is opened now: the
      templated prefix, the rendered stream name, then ".csv". */
  function SinkPath(s: State, k: StreamName): (path: string)
    ensures |path| == |s.templatedPrefix| + |Render(k)| + 4
    ensures path[..|s.templatedPrefix|] == s.templatedPrefix
    ensures path[|s.templatedPrefix|..|path| - 4] == Render(k)
    ensures path[|path| - 4..] == ".csv"
  {
    Middle(s.templatedPrefix, Render(k), ".csv");
    s.templatedPrefix + Render(k) + ".csv"
  }

  /** Two streams get the same file name exactly when their names render alike.
      So an unnamed stream and a stream named "None" get the same file name,
      and whichever of the two opens its file second raises `FileExists`
      (`SharedFileRaises`). */
  lemma SinkPathsEqual(s: State, a: StreamName, b: StreamName)
    ensures SinkPath(s, a) == SinkPath(s, b) <==> Render(a) == Render(b)
  {
    var pa, pb := SinkPath(s, a), SinkPath(s, b);
    if pa == pb {
      assert Render(a) == pa[|s.templatedPrefix|..|pa| - 4];
    }
  }

  predicate HeaderOnce(chunks: seq<Chunk>, header: bool)
  {
    forall i :: 0 <= i < |chunks| ==> chunks[i].header == (header && i == 0)
  }

  /** Every column is either a rank-1 field or the sequence-number column. */
  predicate OnlyTabular(c: Chunk)
  {
    forall i :: 0 <= i < |c.columns| ==>
      || (c.columns[i].key == SeqNumColumn && c.columns[i].value.SeqNums?)
      || (c.columns[i].value.Values? && c.columns[i].value.content.Rank() == 1)
  }

  predicate SinkOk(k: Sink, header: bool)
  {
    && !k.closed
    && HeaderOnce(k.chunks, header)
    && forall i :: 0 <= i < |k.chunks| ==> OnlyTabular(k.chunks[i])
  }

  /** The artifact list names every sink's file once, and no two sinks share a file. */
  ghost predicate Registered(s: State)
  {
    && (forall k :: k in s.files ==> s.files[k].path in s.artifacts)
    && |s.artifacts| == |s.files|
    && (forall i, j :: 0 <= i < j < |s.artifacts| ==> s.artifacts[i] != s.artifacts[j])
    && (forall j, k :: j in s.files && k in s.files && j != k ==> s.files[j].path != s.files[k].path)
  }

  /** What holds of the serializer between documents. */
  ghost predicate Inv(s: State)
  {
    && (forall k :: k in s.hasHeader <==> k in s.files && s.files[k].chunks != [])
    && (forall k :: k in s.files ==> SinkOk(s.files[k], s.config.options.header))
    && Registered(s)
  }

  /** What one document can do to the serializer: the configuration stays, a
      seen start stays seen, a sink keeps its file and only gains chunks, and
      artifacts and header marks only accumulate. */
  ghost predicate Grows(s: State, t: State)
  {
    && t.config == s.config
    && (s.startFound ==> t.startFound)
    && (forall k :: k in s.files ==>
          && k in t.files
          && t.files[k].path == s.files[k].path
          && t.files[k].closed == s.files[k].closed
          && s.files[k].chunks <= t.files[k].chunks)
    && s.artifacts <= t.artifacts
    && s.hasHeader <= t.hasHeader
  }

  /** `Serializer.__init__`: nothing seen, nothing opened, an empty prefix, the
      file prefix defaulted to "{uid}-", and header/index_label/mode defaulted
      to True/"time"/"a". */
  function Init(filePrefix: Option<string>, header: Option<bool>, indexLabel: Option<string>, mode: Option<string>): (s: State)
    ensures Inv(s)
    ensures filePrefix.Some? ==> s.config.filePrefix == filePrefix.value
    ensures filePrefix.None? ==> s.config.filePrefix == DefaultFilePrefix
    ensures s.config.options == SetDefaults(header, indexLabel, mode)
    ensures !s.startFound && s.templatedPrefix == ""
    ensures s.streamNames == map[] && s.files == map[] && s.hasHeader == {} && s.artifacts == []
  {
    State(Config(filePrefix.GetOr(DefaultFilePrefix), SetDefaults(header, indexLabel, mode)), false, "", map[], map[], {}, [])
  }

  /** `start`: a second start is refused; the first marks the start as seen
      (even if the template then fails) and fixes the file prefix. */
  function OnStart(s: State, doc: Metadata, fmt: Formatter): (r: Result)
    ensures s.startFound ==> r == Raised(DuplicateStart, s)
    ensures r.state.startFound
    ensures !s.startFound ==> (r.Ok? <==> fmt(s.config.filePrefix, doc).Some?)
    ensures r.Ok? ==> r.state.templatedPrefix == fmt(s.config.filePrefix, doc).value
    ensures r.Raised? ==> r.state.templatedPrefix == s.templatedPrefix
    ensures r.state == s.(startFound := r.state.startFound, templatedPrefix := r.state.templatedPrefix)
  {
    if s.startFound then Raised(DuplicateStart, s)
    else
      var seen := s.(startFound := true);
      match fmt(s.config.filePrefix, doc)
      case None => Raised(TemplateFailed, seen)
      case Some(prefix) => Ok(seen.(templatedPrefix := prefix))
  }

  /** `descriptor`: the uid now names this stream, a repeated uid is
      overwritten, and no other uid's entry changes. */
  function OnDescriptor(s: State, uid: string, name: StreamName): (r: State)
    ensures uid in r.streamNames && r.streamNames[uid] == name
    ensures forall u :: u != uid ==> (u in r.streamNames <==> u in s.streamNames)
    ensures forall u :: u != uid && u in s.streamNames ==> r.streamNames[u] == s.streamNames[u]
    ensures r == s.(streamNames := r.streamNames)
  {
    s.(streamNames := s.streamNames[uid := name])
  }

  predicate IsTabular(f: Field)
  {
    f.value.Rank() == 1
  }

  /** The fields of a page that are written: those whose array has rank exactly
      1, in the page's order. Rank 0 and rank 2 or more are both dropped. */
  function Tabular(data: seq<Field>): (r: seq<Field>)
    ensures forall f :: f in r <==> f in data && IsTabular(f)
    ensures |r| <= |data|
    ensures forall i :: 0 <= i < |r| ==> IsTabular(r[i])
    ensures (forall i :: 0 <= i < |data| ==> IsTabular(data[i])) ==> r == data
    ensures (forall i :: 0 <= i < |data| ==> !IsTabular(data[i])) ==> r == []
  {
    if data == [] then []
    else if IsTabular(data[0]) then [data[0]] + Tabular(data[1..])
    else Tabular(data[1..])
  }

  /** Filtering keeps the page's order: the kept fields of two runs of fields
      are the kept fields of the first run followed by those of the second.
      With the two single-field cases of `Tabular`'s contract, this fixes the
      result: each rank-1 field once, in the page's order. */
  lemma {:induction false} TabularConcat(a: seq<Field>, b: seq<Field>)
    ensures Tabular(a + b) == Tabular(a) + Tabular(b)
  {
    if a != [] {
      var ab := a + b;
      assert ab[0] == a[0];
      assert ab[1..] == a[1..] + b;
      TabularConcat(a[1..], b);
      if IsTabular(a[0]) {
        calc {
          Tabular(ab);
          [a[0]] + Tabular(a[1..] + b);
          [a[0]] + (Tabular(a[1..]) + Tabular(b));
          ([a[0]] + Tabular(a[1..])) + Tabular(b);
        }
      } else {
        assert Tabular(ab) == Tabular(a[1..] + b);
      }
    } else {
      assert a + b == b;
    }
  }

  /** The table written for a page: indexed by the page's time stamps, the
      surviving fields in order, then `seq_num`. Assigning `seq_num` replaces a
      surviving field of that name where it stands, as a pandas column
      assignment does. */
  function PageTable(page: Page, header: bool): (c: Chunk)
    ensures c.header == header
    ensures c.index == page.time && c.Rows() == |page.time|
    ensures SeqNumColumn !in FieldNames(Tabular(page.data)) ==>
              c.columns == FieldColumns(Tabular(page.data)) + [Entry(SeqNumColumn, SeqNums(page.seqNum))]
    ensures SeqNumColumn in FieldNames(Tabular(page.data)) ==>
              Keys(c.columns) == FieldNames(Tabular(page.data))
    ensures Get(c.columns, SeqNumColumn) == Some(SeqNums(page.seqNum))
    ensures forall n :: n != SeqNumColumn ==> Get(c.columns, n) == Get(FieldColumns(Tabular(page.data)), n)
    ensures OnlyTabular(c)
  {
    var fields := Tabular(page.data);
    FieldColumnsKeys(fields);
    var columns := Put(FieldColumns(fields), SeqNumColumn, SeqNums(page.seqNum));
    SeqNumKeepsTabular(fields, page.seqNum, header, page.time);
    Chunk(header, page.time, columns)
  }

  /** Adding `seq_num` to the columns of rank-1 fields leaves only rank-1 and
      `seq_num` columns. */
  lemma SeqNumKeepsTabular(fields: seq<Field>, nums: seq<int>, header: bool, index: seq<real>)
    requires forall i :: 0 <= i < |fields| ==> IsTabular(fields[i])
    ensures OnlyTabular(Chunk(header, index, Put(FieldColumns(fields), SeqNumColumn, SeqNums(nums))))
  {
    var cs := FieldColumns(fields);
    var r := Put(cs, SeqNumColumn, SeqNums(nums));
    forall i | 0 <= i < |r|
      ensures || (r[i].key == SeqNumColumn && r[i].value.SeqNums?)
              || (r[i].value.Values? && r[i].value.content.Rank() == 1)
    {
      if i < |cs| && r[i] == cs[i] {
        assert IsTabular(fields[i]);
      }
    }
  }

  /** Opening the sink of stream k unless it is open: an exclusive create, so a
      name this serializer already created is refused. */
  function OpenSink(s: State, k: StreamName): (r: Result)
    ensures k in s.files ==> r == Ok(s)
    ensures k !in s.files ==> (r.Raised? <==> SinkPath(s, k) in s.artifacts)
    ensures r.Raised? ==> r == Raised(FileExists(SinkPath(s, k)), s)
    ensures r.Ok? ==> k in r.state.files
    ensures r.Ok? && k !in s.files ==>
              && r.state.files == s.files[k := Sink(SinkPath(s, k), false, [])]
              && r.state.artifacts == s.artifacts + [SinkPath(s, k)]
              && r.state == s.(files := r.state.files, artifacts := r.state.artifacts)
  {
    if k in s.files then Ok(s)
    else
      var path := SinkPath(s, k);
      if path in s.artifacts then Raised(FileExists(path), s)
      else Ok(s.(files := s.files[k := Sink(path, false, [])], artifacts := s.artifacts + [path]))
  }

  /** Two different streams whose names render alike (an unnamed stream and a
      stream named "None"): once one has its file, opening the other's raises
      `FileExists` on that same path and changes nothing. */
  lemma SharedFileRaises(s: State, a: StreamName, b: StreamName)
    requires a != b && Render(a) == Render(b)
    requires Registered(s) && a in s.files && s.files[a].path == SinkPath(s, a) && b !in s.files
    ensures OpenSink(s, b) == Raised(FileExists(SinkPath(s, a)), s)
  {
    SinkPathsEqual(s, a, b);
  }

  /** `event_page`: resolve the stream, keep the rank-1 fields, and if any
      survive, open the stream's sink on first use and append the table, with a
      header only on the stream's first write when headers are on. */
  function OnEventPage(s: State, page: Page): (r: Result)
    ensures page.descriptor !in s.streamNames ==> r == Raised(UnknownDescriptor(page.descriptor), s)
    ensures page.descriptor in s.streamNames && Tabular(page.data) == [] ==> r == Ok(s)
    ensures r.Raised? ==> r.state == s
    ensures page.descriptor in s.streamNames && Tabular(page.data) != [] ==>
              var k := s.streamNames[page.descriptor];
              (r.Raised? <==> k !in s.files && SinkPath(s, k) in s.artifacts)
    ensures r.Ok? && Tabular(page.data) != [] ==>
              var k := s.streamNames[page.descriptor];
              && k in r.state.files
              && r.state.files[k].chunks == Chunks(s, k) + [PageTable(page, s.config.options.header && k !in s.hasHeader)]
              && (k in s.files ==> r.state.files[k].path == s.files[k].path && r.state.artifacts == s.artifacts)
              && (k !in s.files ==> r.state.files[k].path == SinkPath(s, k) && r.state.artifacts == s.artifacts + [SinkPath(s, k)])
              && (forall j :: j != k ==> (j in r.state.files <==> j in s.files))
              && (forall j :: j != k && j in s.files ==> r.state.files[j] == s.files[j])
              && r.state.hasHeader == s.hasHeader + {k}
              && r.state == s.(files := r.state.files, hasHeader := r.state.hasHeader, artifacts := r.state.artifacts)
  {
    if page.descriptor !in s.streamNames then Raised(UnknownDescriptor(page.descriptor), s)
    else
      var k := s.streamNames[page.descriptor];
      if Tabular(page.data) == [] then Ok(s)
      else
        match OpenSink(s, k)
        case Raised(e, t) => Raised(e, t)
        case Ok(t) =>
          Ok(Written(t, k, PageTable(page, s.config.options.header && k !in s.hasHeader)))
  }

  /** Dispatch on the document kind. `stop` and the other kinds leave the
      serializer unchanged. */
  function Step(s: State, doc: Document, fmt: Formatter): (r: Result)
    ensures Inv(s) ==> Inv(r.state)
    ensures Grows(s, r.state)
    ensures doc.Stop? || doc.Other? ==> r == Ok(s)
  {
    match doc
    case Start(m) => OnStart(s, m, fmt)
    case Descriptor(uid, name, _) => Ok(OnDescriptor(s, uid, name))
    case EventPage(page) =>
      var r := OnEventPage(s, page);
      assert Inv(s) ==> Inv(r.state) by {
        if Inv(s) && r.Ok? && Tabular(page.data) != [] {
          EventPageKeepsInv(s, page);
        }
      }
      EventPageGrows(s, page);
      r
    case Stop(_) => Ok(s)
    case Other(_) => Ok(s)
  }

  lemma EventPageGrows(s: State, page: Page)
    ensures Grows(s, OnEventPage(s, page).state)
  {
    var r := OnEventPage(s, page);
    if r.Ok? && Tabular(page.data) != [] {
      var k := s.streamNames[page.descriptor];
      forall j | j in s.files
        ensures j in r.state.files && r.state.files[j].path == s.files[j].path
        ensures r.state.files[j].closed == s.files[j].closed
        ensures s.files[j].chunks <= r.state.files[j].chunks
      {
      }
    }
  }

  lemma EventPageKeepsInv(s: State, page: Page)
    requires Inv(s)
    requires OnEventPage(s, page).Ok? && Tabular(page.data) != []
    ensures Inv(OnEventPage(s, page).state)
  {
    var k := s.streamNames[page.descriptor];
    var o := OpenSink(s, k).state;
    OpenSinkKeepsInv(s, k);
    WriteKeepsInv(o, k, PageTable(page, s.config.options.header && k !in s.hasHeader));
  }

  lemma OpenSinkKeepsInv(s: State, k: StreamName)
    requires Inv(s) && OpenSink(s, k).Ok?
    ensures var o := OpenSink(s, k).state;
      Inv(o) && o.hasHeader == s.hasHeader && o.config == s.config && Chunks(o, k) == Chunks(s, k)
  {
    if k !in s.files {
      OpenKeepsRegistered(s, k);
    }
  }

  /** A newly opened sink's file was not among the artifacts, so the artifacts
      still list each sink once and no two sinks share a file. */
  lemma OpenKeepsRegistered(s: State, k: StreamName)
    requires Registered(s) && k !in s.files && OpenSink(s, k).Ok?
    ensures Registered(OpenSink(s, k).state)
  {
    var o := OpenSink(s, k).state;
    var p := SinkPath(s, k);
    assert o.files == s.files[k := Sink(p, false, [])];
    assert o.artifacts == s.artifacts + [p] && p !in s.artifacts;
    OpenCounts(s.files, k, Sink(p, false, []));
    forall j | j in o.files
      ensures o.files[j].path in o.artifacts
    {
      if j != k {
        assert s.files[j].path in s.artifacts;
      }
    }
  }

  /** Adding a new key to a map adds one to its size. */
  lemma OpenCounts(files: map<StreamName, Sink>, k: StreamName, v: Sink)
    requires k !in files
    ensures |files[k := v]| == |files| + 1
  {
    assert files[k := v].Keys == files.Keys + {k};
  }

  /** The sink state after appending chunk c to stream k and marking it. */
  function Written(o: State, k: StreamName, c: Chunk): (t: State)
    requires k in o.files
    ensures k in t.files && t.files[k].chunks == o.files[k].chunks + [c]
    ensures t.files[k].path == o.files[k].path
    ensures forall j :: j != k ==> (j in t.files <==> j in o.files)
    ensures forall j :: j != k && j in o.files ==> t.files[j] == o.files[j]
    ensures t.hasHeader == o.hasHeader + {k}
    ensures t == o.(files := t.files, hasHeader := t.hasHeader)
  {
    o.(files := o.files[k := o.files[k].Write(c)], hasHeader := o.hasHeader + {k})
  }

  lemma WriteKeepsInv(o: State, k: StreamName, c: Chunk)
    requires Inv(o) && k in o.files
    requires c.header == (o.config.options.header && k !in o.hasHeader)
    requires OnlyTabular(c)
    ensures Inv(o.(files := o.files[k := o.files[k].Write(c)], hasHeader := o.hasHeader + {k}))
  {
    var t := Written(o, k, c);
    WriteKeepsMarks(o, k, c);
    WriteKeepsSinks(o, k, c);
    WriteKeepsRegistered(o, k, c);
    assert Inv(t);
  }

  /** After the write, the streams marked as written are those with chunks. */
  lemma WriteKeepsMarks(o: State, k: StreamName, c: Chunk)
    requires Inv(o) && k in o.files
    ensures var t := Written(o, k, c);
      forall j :: j in t.hasHeader <==> j in t.files && t.files[j].chunks != []
  {
    var t := Written(o, k, c);
    forall j
      ensures j in t.hasHeader <==> j in t.files && t.files[j].chunks != []
    {
      if j != k {
        assert j in o.hasHeader <==> j in o.files && o.files[j].chunks != [];
      }
    }
  }

  /** After the write, every sink is open, has its header on the first chunk
      only, and holds only rank-1 and `seq_num` columns. */
  lemma WriteKeepsSinks(o: State, k: StreamName, c: Chunk)
    requires Inv(o) && k in o.files
    requires c.header == (o.config.options.header && k !in o.hasHeader)
    requires OnlyTabular(c)
    ensures var t := Written(o, k, c);
      forall j :: j in t.files ==> SinkOk(t.files[j], o.config.options.header)
  {
    var t := Written(o, k, c);
    var h := o.config.options.header;
    forall j | j in t.files
      ensures SinkOk(t.files[j], h)
    {
      if j == k {
        var cs := o.files[k].chunks;
        assert SinkOk(o.files[k], h);
        assert k in o.hasHeader <==> cs != [];
        assert t.files[k].chunks == cs + [c];
      }
    }
  }

  /** The write changes no file name, so the artifacts still list each sink once. */
  lemma WriteKeepsRegistered(o: State, k: StreamName, c: Chunk)
    requires Registered(o) && k in o.files
    ensures Registered(Written(o, k, c))
  {
    var t := Written(o, k, c);
    assert t.files.Keys == o.files.Keys;
    forall j | j in t.files
      ensures t.files[j].path == o.files[j].path
    {
    }
  }

  /** `close`: every sink is closed; nothing else changes. */
  function Close(s: State): (r: State)
    ensures r.files.Keys == s.files.Keys
    ensures forall k :: k in s.files ==> r.files[k] == s.files[k].Close()
    ensures r == s.(files := r.files)
  {
    s.(files := map k | k in s.files :: s.files[k].Close())
  }
}

=== FILE: router_csv_run.dfy ===
/**
 A whole export with the router-based serializer: the documents of one run
 handled in order, the first raised error ending the run, and `close` run on
 every way out. The lemmas relate the serializer's state after a run to
 reference definitions read directly off the document sequence.
 */
module RouterCsvRun {
  import opened Optional
  import opened Dicts
  import opened Common
  import opened RouterCsv

  /** The serializer after handling docs in order; the first error stops it. */
  function Run(s: State, docs: seq<Document>, fmt: Formatter): (r: Result)
    ensures Inv(s) ==> Inv(r.state)
    ensures Grows(s, r.state)
    decreases |docs|
  {
    if docs == [] then Ok(s)
    else
      match Run(s, docs[..|docs| - 1], fmt)
      case Raised(e, t) => Raised(e, t)
      case Ok(t) =>
        var r := Step(t, docs[|docs| - 1], fmt);
        GrowsTransitive(s, t, r.state);
        r
  }

  lemma GrowsTransitive(s: State, t: State, u: State)
    requires Grows(s, t) && Grows(t, u)
    ensures Grows(s, u)
  {
    forall k | k in s.files
      ensures s.files[k].chunks <= u.files[k].chunks
    {
      assert s.files[k].chunks <= t.files[k].chunks <= u.files[k].chunks;
    }
  }

  /** What `export` returns or raises, with the serializer as it is after the
      `finally` clause has closed it. `artifacts` is the list the manager keeps
      under the label `stream_data`, the only label this serializer uses. */
  datatype Exported =
    | Exported(artifacts: seq<string>, final: State)
    | Failed(error: Error, final: State)

  /** `export`: feed every document to a fresh serializer; whatever happens,
      close it. Every sink that was opened ends closed, each keeps the
      header-once rule and holds only rank-1 and `seq_num` columns, and the
      artifacts are the files opened, each once. */
  method Export(docs: seq<Document>, filePrefix: Option<string>, header: Option<bool>, indexLabel: Option<string>,
                mode: Option<string>, fmt: Formatter) returns (r: Exported)
    ensures var run := Run(Init(filePrefix, header, indexLabel, mode), docs, fmt);
      && r.final == Close(run.state)
      && (r.Failed? <==> run.Raised?)
      && (r.Failed? ==> r.error == run.error)
    ensures r.Exported? ==> r.artifacts == r.final.artifacts
    ensures Finished(r.final)
  {
    var init := Init(filePrefix, header, indexLabel, mode);
    var s := init;
    var i := 0;
    while i < |docs|
      invariant 0 <= i <= |docs|
      invariant Run(init, docs[..i], fmt) == Ok(s)
      invariant Inv(s)
    {
      RunSnoc(init, docs, i, fmt);
      var step := Step(s, docs[i], fmt);
      if step.Raised? {
        RaisedPersists(init, docs, i + 1, fmt);
        CloseFinishes(step.state);
        r := Failed(step.error, Close(step.state));
        return;
      }
      s := step.state;
      i := i + 1;
    }
    assert docs[..i] == docs;
    CloseFinishes(s);
    r := Exported(Close(s).artifacts, Close(s));
  }

  /** One more document: the run over the first i + 1 documents is the step
      from the run over the first i. */
  lemma RunSnoc(s: State, docs: seq<Document>, i: nat, fmt: Formatter)
    requires i < |docs| && Run(s, docs[..i], fmt).Ok?
    ensures Run(s, docs[..i + 1], fmt) == Step(Run(s, docs[..i], fmt).state, docs[i], fmt)
  {
    assert docs[..i + 1][..i] == docs[..i];
  }

  /** A serializer after `close`: every sink closed, each keeping the
      header-once rule and only rank-1 and `seq_num` columns, no two sinks on one
      file, and every sink's file among the artifacts. */
  ghost predicate Finished(f: State)
  {
    && (forall k :: k in f.files ==> f.files[k].closed)
    && (forall k :: k in f.files ==>
          && HeaderOnce(f.files[k].chunks, f.config.options.header)
          && forall i :: 0 <= i < |f.files[k].chunks| ==> OnlyTabular(f.files[k].chunks[i]))
    && (forall j, k :: j in f.files && k in f.files && j != k ==> f.files[j].path != f.files[k].path)
    && (forall k :: k in f.files ==> f.files[k].path in f.artifacts)
  }

  lemma CloseFinishes(s: State)
    requires Inv(s)
    ensures Finished(Close(s))
  {
    var f := Close(s);
    forall k | k in f.files
      ensures f.files[k].chunks == s.files[k].chunks && f.files[k].path == s.files[k].path
    {
    }
  }

  /** Once a prefix of the run has raised, the run as a whole ends there. */
  lemma {:induction false} RaisedPersists(s: State, docs: seq<Document>, n: nat, fmt: Formatter)
    requires n <= |docs| && Run(s, docs[..n], fmt).Raised?
    ensures Run(s, docs, fmt) == Run(s, docs[..n], fmt)
    decreases |docs| - n
  {
    if n < |docs| {
      var p := docs[..n + 1];
      assert p[..n] == docs[..n];
      assert Run(s, p, fmt) == Run(s, docs[..n], fmt);
      RaisedPersists(s, docs, n + 1, fmt);
    } else {
      assert docs[..n] == docs;
    }
  }

  // ---- Reference definitions, read directly off the document sequence ----

  /** How many start documents docs holds. */
  function Starts(docs: seq<Document>): nat
  {
    if docs == [] then 0
    else Starts(docs[..|docs| - 1]) + (if docs[|docs| - 1].Start? then 1 else 0)
  }

  /** The payload of the first start document, if any. */
  function FirstStart(docs: seq<Document>): Option<Metadata>
  {
    if docs == [] then None
    else if FirstStart(docs[..|docs| - 1]).Some? then FirstStart(docs[..|docs| - 1])
    else if docs[|docs| - 1].Start? then Some(docs[|docs| - 1].start)
    else None
  }

  /** The stream name the latest descriptor with this uid declared, if any. */
  function LastName(docs: seq<Document>, uid: string): Option<StreamName>
  {
    if docs == [] then None
    else if docs[|docs| - 1].Descriptor? && docs[|docs| - 1].uid == uid then Some(docs[|docs| - 1].name)
    else LastName(docs[..|docs| - 1], uid)
  }

  /** The pages that reach stream k, in arrival order: those whose descriptor
      was last declared under name k and that have at least one rank-1 field. */
  function Routed(docs: seq<Document>, k: StreamName): seq<Page>
  {
    if docs == [] then []
    else
      var prefix := docs[..|docs| - 1];
      var d := docs[|docs| - 1];
      if d.EventPage? && LastName(prefix, d.page.descriptor) == Some(k) && Tabular(d.page.data) != []
      then Routed(prefix, k) + [d.page]
      else Routed(prefix, k)
  }

  /** The chunks a stream's file should hold for these pages: one table per
      page, a header on the first only, and only when headers are on. */
  function Expected(header: bool, pages: seq<Page>): seq<Chunk>
  {
    seq(|pages|, i requires 0 <= i < |pages| => PageTable(pages[i], header && i == 0))
  }

  function Lookup(m: map<string, StreamName>, uid: string): Option<StreamName>
  {
    if uid in m then Some(m[uid]) else None
  }

  /** The documents the serializer acts on, in order: all but stop documents
      and the kinds the router does not hand to it. */
  function Active(docs: seq<Document>): seq<Document>
  {
    if docs == [] then []
    else
      var d := docs[|docs| - 1];
      if d.Stop? || d.Other? then Active(docs[..|docs| - 1])
      else Active(docs[..|docs| - 1]) + [d]
  }

  /** Stop documents and unrouted kinds change nothing: the run over docs
      ends exactly as the run over the active documents alone. */
  lemma {:induction false} PassiveIgnored(s: State, docs: seq<Document>, fmt: Formatter)
    ensures Run(s, docs, fmt) == Run(s, Active(docs), fmt)
  {
    if docs != [] {
      var p := docs[..|docs| - 1];
      var d := docs[|docs| - 1];
      PassiveIgnored(s, p, fmt);
      if !(d.Stop? || d.Other?) {
        assert (Active(p) + [d])[..|Active(p)|] == Active(p);
      }
    }
  }

  // ---- Start documents ----

  /** After a start document, the run has either raised or seen a start. */
  lemma {:induction false} StartSeen(s: State, docs: seq<Document>, fmt: Formatter)
    requires Starts(docs) >= 1
    ensures Run(s, docs, fmt).Raised? || Run(s, docs, fmt).state.startFound
  {
    var p := docs[..|docs| - 1];
    if Starts(p) >= 1 {
      StartSeen(s, p, fmt);
    }
  }

  /** A second start document always makes the export raise. */
  lemma {:induction false} SecondStartRaises(s: State, docs: seq<Document>, fmt: Formatter)
    requires Starts(docs) >= 2
    ensures Run(s, docs, fmt).Raised?
  {
    var p := docs[..|docs| - 1];
    if Starts(p) >= 2 {
      SecondStartRaises(s, p, fmt);
    } else {
      StartSeen(s, p, fmt);
    }
  }

  /** The start flag is only ever set by a start document. */
  lemma {:induction false} StartFoundNeedsStart(s: State, docs: seq<Document>, fmt: Formatter)
    requires !s.startFound
    ensures Run(s, docs, fmt).state.startFound ==> Starts(docs) >= 1
  {
    if docs != [] {
      var p := docs[..|docs| - 1];
      StartFoundNeedsStart(s, p, fmt);
      var r := Run(s, p, fmt);
      if r.Ok? && !docs[|docs| - 1].Start? {
        FlagStep(r.state, docs[|docs| - 1], fmt);
      }
    }
  }

  /** Only a start document sets the start flag. */
  lemma FlagStep(t: State, d: Document, fmt: Formatter)
    requires !d.Start?
    ensures Step(t, d, fmt).state.startFound == t.startFound
  {
    if d.EventPage? {
      assert Step(t, d, fmt) == OnEventPage(t, d.page);
    }
  }

  /** The duplicate-start error is raised only when two start documents came. */
  lemma {:induction false} DuplicateStartNeedsTwo(s: State, docs: seq<Document>, fmt: Formatter)
    requires !s.startFound
    ensures Run(s, docs, fmt).Raised? && Run(s, docs, fmt).error == DuplicateStart ==> Starts(docs) >= 2
  {
    if docs != [] {
      var p := docs[..|docs| - 1];
      DuplicateStartNeedsTwo(s, p, fmt);
      StartFoundNeedsStart(s, p, fmt);
    }
  }

  /** After a run that raised nothing, a start was seen exactly when one came,
      and the prefix is the template filled from the first one. */
  lemma {:induction false} PrefixFromStart(s: State, docs: seq<Document>, fmt: Formatter)
    requires !s.startFound
    requires Run(s, docs, fmt).Ok?
    ensures var t := Run(s, docs, fmt).state;
      && (t.startFound <==> FirstStart(docs).Some?)
      && (FirstStart(docs).None? ==> t.templatedPrefix == s.templatedPrefix)
      && (FirstStart(docs).Some? ==>
            fmt(s.config.filePrefix, FirstStart(docs).value).Some?
            && t.templatedPrefix == fmt(s.config.filePrefix, FirstStart(docs).value).value)
  {
    if docs != [] {
      var p := docs[..|docs| - 1];
      PrefixFromStart(s, p, fmt);
    }
  }

  // ---- Descriptors ----

  /** After a run that raised nothing, each uid names the stream its latest
      descriptor declared, and uids never declared are unknown. */
  lemma {:induction false} StreamNamesFollowDescriptors(s: State, docs: seq<Document>, fmt: Formatter)
    requires s.streamNames == map[]
    requires Run(s, docs, fmt).Ok?
    ensures forall u :: Lookup(Run(s, docs, fmt).state.streamNames, u) == LastName(docs, u)
  {
    if docs != [] {
      var p := docs[..|docs| - 1];
      StreamNamesFollowDescriptors(s, p, fmt);
    }
  }

  /** A page whose descriptor uid was never declared before it makes the
      export raise, at that page or earlier, before anything is written for it. */
  lemma UnregisteredPageRaises(s: State, docs: seq<Document>, i: nat, fmt: Formatter)
    requires s.streamNames == map[]
    requires i < |docs| && docs[i].EventPage? && LastName(docs[..i], docs[i].page.descriptor).None?
    ensures Run(s, docs, fmt).Raised?
  {
    var p := docs[..i + 1];
    assert p[..i] == docs[..i];
    if Run(s, docs[..i], fmt).Ok? {
      StreamNamesFollowDescriptors(s, docs[..i], fmt);
      assert Lookup(Run(s, docs[..i], fmt).state.streamNames, docs[i].page.descriptor).None?;
    }
    assert Run(s, p, fmt).Raised?;
    RaisedPersists(s, docs, i + 1, fmt);
  }

  // ---- What the sinks hold ----

  lemma ExpectedSnoc(header: bool, pages: seq<Page>, page: Page)
    ensures Expected(header, pages + [page]) == Expected(header, pages) + [PageTable(page, header && pages == [])]
  {
  }

  /** After a run that raised nothing, stream k has a sink exactly when some
      page with a rank-1 field reached it, and its file holds one table per such
      page in arrival order, a header on the first one only (when headers are
      on). So rows written to a stream are exactly the time stamps of its pages. */
  lemma {:induction false} SinkContents(s: State, docs: seq<Document>, fmt: Formatter)
    requires s.streamNames == map[] && s.files == map[] && s.hasHeader == {} && Inv(s)
    requires Run(s, docs, fmt).Ok?
    ensures var t := Run(s, docs, fmt).state;
      forall k :: && Chunks(t, k) == Expected(s.config.options.header, Routed(docs, k))
                  && (k in t.files <==> Routed(docs, k) != [])
  {
    var h := s.config.options.header;
    if docs != [] {
      var p := docs[..|docs| - 1];
      var d := docs[|docs| - 1];
      SinkContents(s, p, fmt);
      var t := Run(s, p, fmt).state;
      var u := Run(s, docs, fmt).state;
      assert Step(t, d, fmt) == Ok(u);
      if d.EventPage? && Tabular(d.page.data) != [] {
        StreamNamesFollowDescriptors(s, p, fmt);
        PageStep(t, d.page, fmt);
        var k0 := t.streamNames[d.page.descriptor];
        assert Lookup(t.streamNames, d.page.descriptor) == Some(k0);
        assert LastName(p, d.page.descriptor) == Some(k0);
        forall k
          ensures Chunks(u, k) == Expected(h, Routed(docs, k))
          ensures k in u.files <==> Routed(docs, k) != []
        {
          if k == k0 {
            var pages := Routed(p, k0);
            assert Routed(docs, k0) == pages + [d.page];
            assert k0 in t.hasHeader <==> pages != [];
            ExpectedSnoc(h, pages, d.page);
          } else {
            assert Routed(docs, k) == Routed(p, k);
          }
        }
      } else {
        QuietStep(t, d, fmt);
        forall k
          ensures Routed(docs, k) == Routed(p, k)
        {
        }
      }
    }
  }

  /** A page with a rank-1 field appends one table to its stream's sink and
      leaves every other stream's sink as it was. */
  lemma PageStep(t: State, page: Page, fmt: Formatter)
    requires Step(t, EventPage(page), fmt).Ok? && Tabular(page.data) != []
    ensures page.descriptor in t.streamNames
    ensures var u := Step(t, EventPage(page), fmt).state;
      var k0 := t.streamNames[page.descriptor];
      && k0 in u.files
      && Chunks(u, k0) == Chunks(t, k0) + [PageTable(page, t.config.options.header && k0 !in t.hasHeader)]
      && forall k :: k != k0 ==> Chunks(u, k) == Chunks(t, k) && (k in u.files <==> k in t.files)
  {
    assert Step(t, EventPage(page), fmt) == OnEventPage(t, page);
  }

  /** Every other document that raises nothing leaves the sinks as they were. */
  lemma QuietStep(t: State, d: Document, fmt: Formatter)
    requires Step(t, d, fmt).Ok? && !(d.EventPage? && Tabular(d.page.data) != [])
    ensures Step(t, d, fmt).state.files == t.files
  {
  }
}
